=== FILE: README.md ===
# hmdp flash sale and cache, modelled in Dafny

This project models the coordination core of the hmdp ("黑马点评") Spring Boot
service. The model covers:

- the 64-bit order id generator;
- the flash-sale front end, in its in-process-queue and message-broker variants;
- the asynchronous stage that materialises admitted orders under a per-user lock;
- the owner-token Redis lock;
- the cache-aside helpers of `CacheUtil`, with their two clients, shop lookup and
  shop-type listing;
- the small state machines of the blog, follow and login services.

Redis is an immutable map from keys to values with an optional expiry instant,
generic in the type of object values (`KvStore`). Time is an explicit integer
number of seconds (milliseconds for the blog scores). The database tables are
maps or sequences. Every Java operation is a pure function from the state it reads
to its reply and the state it leaves. A Java exception is the `Threw` case of
`Outcome`. A `@Transactional` method that throws leaves the tables as they were.

Modules follow the source files:

| module | models |
|---|---|
| `JavaLong`, `JavaStrings` | Java `long` arithmetic (two's-complement wrap, `<<`, `>>`, `|`, `(int)`) and decimal rendering of ids in string concatenation |
| `KvStore`, `RedisConstants` | the Redis string commands used (GET, SET [EX], SET NX EX, DEL, INCR) and the shared key prefixes and TTLs |
| `RedisIdGenerator` | `RedisIDGenerator.nextId` |
| `RedisDistributedLock` | `RedisDistributedLock.tryLock` / `unlock` |
| `Seckill` | the admission steps both flash-sale variants share |
| `VoucherOrderService` | `VoucherOrderServiceImpl`: request path, worker loop, `handlerVoucherOrder`, `createVoucherOrder` |
| `SeckillVoucherService` | `SeckillVoucherServiceImpl.secKillByVoucherId` |
| `VoucherOrderListener` | `VoucherOrderListener.onMessage` |
| `AdmissionScript` | an explicit assumption about secKill.lua, and the no-oversell / one-order-per-user theorem it yields |
| `CacheUtil` | `CacheUtil` |
| `ShopService`, `ShopTypeService` | `ShopServiceImpl.queryById` / `update`, `ShopTypeServiceImpl.queryList` |
| `BlogService`, `FollowService`, `UserService` | `BlogServiceImpl`, `FollowServiceImpl`, `UserServiceImpl` |

Two Lua scripts are loaded by the code but are not part of this model.

- **secKill.lua.** Its result code is an input of the front-end functions. The
  module `AdmissionScript` states the behaviour assumed of it as a function
  (`RunScript`):
  - code 0 for a user who has not ordered while stock remains, and it then
    records the user and decrements the stock;
  - code 1 when the stock is exhausted;
  - code 2 for a repeat order.

  The no-oversell theorem is proved under that assumption only.
- **unLock.lua.** It is assumed to be an atomic compare-and-delete
  (`RedisDistributedLock.UnlockScript`).

## Where the code departs from its evident intent

The model follows the code in each of these cases.

- **Materialiser skips no duplicates.** `createVoucherOrder` counts the orders of
  the same user and voucher and logs "不能重复下单" (no repeat orders) when there is
  one, and logs "库存不足" (out of stock) when the decrement fails. It then saves
  the order in every case. The admission script is meant to stop repeat orders
  first. The per-user lock taken before `createVoucherOrder` is commented in
  `VoucherOrderListener.handlerVoucherOrder` as a backstop for it.
  `VoucherOrderService.DuplicateUserOrderSavedTwice` shows what the backstop lets
  through: two orders with different ids for the same user and voucher are both
  saved, and the stock drops twice.
- **The logically-expiring read blocks on the rebuild.** The comment at the lock
  ("open a separate thread for the rebuild") and `CACHE_REBUILD_EXECUTOR` point to a
  rebuild in the background, with the stale value returned at once. The code
  blocks on `future.get()` until the rebuild has finished, then returns the stale
  value. The double-check runs in the request thread.
  - When the double-check finds a fresh value, it returns that value without
    releasing the rebuild lock. The lock then expires after 10 seconds.
  - When the re-read value cannot be decoded, the exception leaves the lock held.
- **`CacheUtil`'s lock has no owner token.** Its release is a plain DEL, not the
  compare-and-delete of `RedisDistributedLock`.
- **Lock key and prefix.** The lock key is `LOCK_SHOP_KEY + id` whatever key prefix
  the entry uses.
- **No mutex-guarded rebuild.** That read strategy exists only as commented-out
  code, so it is not modelled.

## Model

| member | source | states |
|---|---|---|
| KvStore.Set | src/main/java/com/hmdp/utils/CacheUtil.java:40 | SET makes the value readable from now until its TTL runs out, after which the key reads as absent. No other key changes. |
| KvStore.SetIfAbsent | src/main/java/com/hmdp/utils/RedisDistributedLock.java:38 | SET NX EX writes exactly when the key holds no live value, and reports whether it wrote. A refused write changes nothing. |
| KvStore.Delete | src/main/java/com/hmdp/utils/CacheUtil.java:193 | DEL makes the key unreadable at every time and leaves every other key as it reads. |
| KvStore.Incr | src/main/java/com/hmdp/utils/RedisIDGenerator.java:26 | INCR starts a missing or expired key at 1 and adds one to a live counter. It fails exactly when the value is not a counter or would leave the `long` range. The new value is readable. |
| KvStore.SetOverwrites | src/main/java/com/hmdp/utils/CacheUtil.java:40 | A second SET on a key hides the first completely. |
| JavaLong.Wrap | src/main/java/com/hmdp/utils/RedisIDGenerator.java:24 | The `long` subtraction is congruent to the exact result modulo 2^64, and equal to it when that fits. |
| JavaLong.IntValue | src/main/java/com/hmdp/service/impl/SeckillVoucherServiceImpl.java:79 | `res.intValue()` keeps the low 32 bits as a signed int, and is exact for values that fit. |
| JavaLong.ShiftLeft32 | src/main/java/com/hmdp/utils/RedisIDGenerator.java:27 | `x << 32` on a long is congruent to x·2^32 modulo 2^64. |
| JavaLong.OrBitsBound | src/main/java/com/hmdp/utils/RedisIDGenerator.java:27 | The OR of n-bit patterns fits in n bits. |
| JavaLong.OrBitsDisjoint | src/main/java/com/hmdp/utils/RedisIDGenerator.java:27 | OR of a pattern shifted past k bits with a pattern below 2^k is their sum. |
| JavaStrings.LongToStringSign | src/main/java/com/hmdp/utils/VoucherOrderListener.java:43 | The decimal text of a long is non-empty and starts with '-' exactly for negative values. |
| JavaStrings.LongToStringInjective | src/main/java/com/hmdp/utils/VoucherOrderListener.java:43 | Distinct longs concatenate to distinct decimal texts. |
| JavaStrings.IdKeyInjective | src/main/java/com/hmdp/utils/VoucherOrderListener.java:43 | Keys built as a fixed prefix plus an id coincide exactly when the ids do. |
| RedisIdGenerator.NextId | src/main/java/com/hmdp/utils/RedisIDGenerator.java:21-28 | nextId succeeds exactly when the INCR of `"icr:" + prefix + date` does. It leaves the counter readable and no other key changed. When both halves fit, it returns timeStamp·2^32 + counter. |
| RedisIdGenerator.PackIsArithmetic | src/main/java/com/hmdp/utils/RedisIDGenerator.java:17-27 | With a counter below 2^32, `timeStamp << 32 \| counter` equals timeStamp·2^32 + counter. |
| RedisIdGenerator.PackExactIff | src/main/java/com/hmdp/utils/RedisIDGenerator.java:24-27 | The id is that sum exactly when the time stamp fits in 32 signed bits. It is a non-negative sum exactly when the time stamp lies in [0, 2^31). |
| RedisIdGenerator.UnpackPack | src/main/java/com/hmdp/utils/RedisIDGenerator.java:27 | `id >> 32` recovers the time stamp and `id & 0xFFFFFFFF` the counter. |
| RedisIdGenerator.PackInjective | src/main/java/com/hmdp/utils/RedisIDGenerator.java:27 | Distinct (time stamp, counter) pairs within bounds give distinct ids. |
| RedisIdGenerator.PackOrdered | src/main/java/com/hmdp/utils/RedisIDGenerator.java:24-27 | Ids order by time stamp first and counter second, in both directions. |
| RedisIdGenerator.TimeStampSign | src/main/java/com/hmdp/utils/RedisIDGenerator.java:16-24 | Away from the bottom of the long range the time stamp is exact. It is non-negative exactly from 1704067200 on. |
| RedisIdGenerator.TimeStampMonotonic | src/main/java/com/hmdp/utils/RedisIDGenerator.java:24 | A later clock reading gives a time stamp at least as large. |
| RedisIdGenerator.CounterKeyInjective | src/main/java/com/hmdp/utils/RedisIDGenerator.java:25-26 | With fixed-width dates, counter keys coincide exactly when prefix and day both do. |
| RedisIdGenerator.CounterAdvances | src/main/java/com/hmdp/utils/RedisIDGenerator.java:26 | Two INCRs of a counter without expiry return c and then c + 1. |
| RedisIdGenerator.NextIdValue | src/main/java/com/hmdp/utils/RedisIDGenerator.java:26-27 | Once INCR has returned and both halves fit, the id is timeStamp·2^32 + counter. |
| RedisIdGenerator.NextIdIncreasing | src/main/java/com/hmdp/utils/RedisIDGenerator.java:21-27 | Two successive ids for the same prefix and day, under a clock that does not go back, strictly increase. |
| RedisDistributedLock.TryLock | src/main/java/com/hmdp/utils/RedisDistributedLock.java:35-41 | tryLock returns true exactly when `"lock:" + name` was free. The caller's token then holds for the whole TTL. On false nothing changes. A timeout that is not positive is refused by Redis and throws. |
| RedisDistributedLock.UnlockScript | src/main/java/com/hmdp/utils/RedisDistributedLock.java:26 | Assumed script: delete the key exactly when it holds the given token; no other key changes. |
| RedisDistributedLock.Unlock | src/main/java/com/hmdp/utils/RedisDistributedLock.java:45-50 | unlock frees the lock exactly when this thread's token holds it, and otherwise changes nothing. |
| RedisDistributedLock.MutualExclusion | src/main/java/com/hmdp/utils/RedisDistributedLock.java:38-39 | While the first holder's token is live, a second tryLock on the same name fails and changes nothing. |
| RedisDistributedLock.TokenInjective | src/main/java/com/hmdp/utils/RedisDistributedLock.java:37 | Tokens from well-formed UUID prefixes coincide exactly when the prefix and the thread id do. |
| RedisDistributedLock.UnlockByOtherIsNoOp | src/main/java/com/hmdp/utils/RedisDistributedLock.java:46-49 | Another thread's unlock leaves the holder's token in place. |
| RedisDistributedLock.ReleaseThenReacquire | src/main/java/com/hmdp/utils/RedisDistributedLock.java:35-50 | After the owner's unlock, anyone's tryLock succeeds. |
| RedisDistributedLock.LockKeyInjective | src/main/java/com/hmdp/utils/RedisDistributedLock.java:36 | Different lock names use different keys. |
| Seckill.WindowGate | src/main/java/com/hmdp/service/impl/VoucherOrderServiceImpl.java:78-83 | Gives "not started" exactly before beginTime and "ended" exactly after endTime. It passes exactly inside the closed window. |
| Seckill.ScriptVerdict | src/main/java/com/hmdp/service/impl/VoucherOrderServiceImpl.java:92-93 | Code 0 admits, 1 is sold out, any other code is a repeat order. |
| Seckill.Admit | src/main/java/com/hmdp/service/impl/VoucherOrderServiceImpl.java:76-99 | A missing voucher hash throws. The gate refuses first, then the script code. Only code 0 reaches nextId("order"), and the order carries that id, the voucher and the user. |
| Seckill.WindowInclusive | src/main/java/com/hmdp/service/impl/VoucherOrderServiceImpl.java:78-83 | Requests at beginTime and at endTime pass. One second outside the window they are refused with the matching message. |
| Seckill.OrderLockPerUser | src/main/java/com/hmdp/service/impl/VoucherOrderServiceImpl.java:132 | `"lock:order:" + userId` differs for different users. |
| VoucherOrderService.SecKillByVoucherId | src/main/java/com/hmdp/service/impl/VoucherOrderServiceImpl.java:75-103 | A refusal returns fail with the state untouched. An admission returns its order id, keeps the advanced id counter, and appends exactly that order to the queue. The queue never exceeds 1024·1024 orders: when it is full the call throws, the id counter stays advanced and the queue is unchanged. |
| VoucherOrderService.DecrementStock | src/main/java/com/hmdp/service/impl/VoucherOrderServiceImpl.java:187-191 | The conditional UPDATE decrements exactly when the voucher's stock is positive, and reports that. |
| VoucherOrderService.CreateVoucherOrder | src/main/java/com/hmdp/service/impl/VoucherOrderServiceImpl.java:178-196 | The order is saved whatever the duplicate count and decrement say. A fault rolls everything back. The stock is never driven negative. |
| VoucherOrderService.HandlerVoucherOrder | src/main/java/com/hmdp/service/impl/VoucherOrderServiceImpl.java:130-144 | A held user lock drops the order untouched. Otherwise createVoucherOrder runs once, and the lock is released whatever it did. |
| VoucherOrderService.HandleItem | src/main/java/com/hmdp/service/impl/VoucherOrderServiceImpl.java:115-121 | One loop pass persists its item exactly when the user lock is free and the transaction does not fault. The stock only goes down. |
| VoucherOrderService.Worker | src/main/java/com/hmdp/service/impl/VoucherOrderServiceImpl.java:112-124 | Over a whole queue, the saved orders are exactly the items whose lock was free and whose transaction succeeded, in queue order. A failing item does not stop the loop. The stock only goes down and stays non-negative. |
| VoucherOrderService.DuplicateUserOrderSavedTwice | src/main/java/com/hmdp/service/impl/VoucherOrderServiceImpl.java:178-195 | Two orders with different ids for the same user and voucher, handled one after the other with the user's lock free, are both saved: the count of that user's orders for the voucher rises by two and the stock drops by two. |
| SeckillVoucherService.SecKillByVoucherId | src/main/java/com/hmdp/service/impl/SeckillVoucherServiceImpl.java:62-96 | Refusals publish nothing. An admission keeps the advanced id counter, publishes exactly one order to secKill.topic / secKill.success when the send works, and returns ok(orderId) either way. |
| SeckillVoucherService.ReplyIndependentOfBroker | src/main/java/com/hmdp/service/impl/SeckillVoucherServiceImpl.java:89-95 | A failed publish changes neither the reply nor the Redis state. |
| VoucherOrderListener.OnMessage | src/main/java/com/hmdp/utils/VoucherOrderListener.java:31-57 | onMessage never throws and leaves the lock set as it found it. A held lock or a fault leaves the tables unchanged. A free lock with no fault appends the order. Non-negative stock stays non-negative. |
| VoucherOrderListener.UsersDoNotContend | src/main/java/com/hmdp/utils/VoucherOrderListener.java:43 | Another user's held lock makes no difference to how an order is handled. |
| AdmissionScript.RunScript | src/main/java/com/hmdp/service/impl/VoucherOrderServiceImpl.java:85-90 | Assumed script: code 0 exactly when stock remains and the user has not ordered, with the user recorded and one unit taken. Code 1 exactly when sold out. Otherwise nothing changes. |
| AdmissionScript.Step | src/main/java/com/hmdp/service/impl/VoucherOrderServiceImpl.java:75-103 | A closed gate, sold out and a repeat order each refuse with their message and change nothing. An ok reply takes one unit, records the user and queues one order. |
| AdmissionScript.InvariantAcrossAdmission | src/main/java/com/hmdp/service/impl/VoucherOrderServiceImpl.java:94-100 | Appending one order for a newly recorded user and one unit of stock keeps the sale invariant. |
| AdmissionScript.StepPreservesInvariant | src/main/java/com/hmdp/service/impl/VoucherOrderServiceImpl.java:75-103 | Every request keeps the sale invariant. |
| AdmissionScript.RunPreservesInvariant | src/main/java/com/hmdp/service/impl/VoucherOrderServiceImpl.java:75-103 | Any sequence of requests keeps the sale invariant. |
| AdmissionScript.NoOversellOnePerUser | src/main/java/com/hmdp/service/impl/VoucherOrderServiceImpl.java:85-100 | From stock S, any request sequence queues at most S orders, all for the voucher and none for a user twice. |
| CacheUtil.SaveObject | src/main/java/com/hmdp/utils/CacheUtil.java:34-41 | A null object writes nothing. Otherwise the bean is readable for the TTL and gone after it. A zero TTL is Redis's invalid-expire error reply. |
| CacheUtil.SaveObjectWithLogicExpire | src/main/java/com/hmdp/utils/CacheUtil.java:50-59 | A null object gives "" and writes nothing. Otherwise it returns "成功" and stores RedisData(now + timeout, object), readable at every time. |
| CacheUtil.GetObject | src/main/java/com/hmdp/utils/CacheUtil.java:75-92 | A hit returns the bean and a blank marker returns null, both without writes. Any other hit throws, also without writes. A miss consults the loader: an absent object leaves "" for CACHE_NULL_TTL minutes, a present one is cached for the TTL, and with a zero TTL it is Redis's invalid-expire error with no write. |
| CacheUtil.TryLock | src/main/java/com/hmdp/utils/CacheUtil.java:183-186 | SET "1" NX EX 10 succeeds exactly when the lock key is free. |
| CacheUtil.Unlock | src/main/java/com/hmdp/utils/CacheUtil.java:192-194 | DEL of the lock key, whoever holds it. |
| CacheUtil.QueryWithLogicExpire | src/main/java/com/hmdp/utils/CacheUtil.java:107-156 | Blank reads null. A non-RedisData value throws. A fresh entry is returned untouched. A taken lock returns the stale value. A fresh re-read is returned, and an undecodable one throws; on both paths the store is exactly as the lock acquisition left it, with the entry as the other client wrote it and the lock kept. Otherwise the loader's object is written with expiry now + timeout, or the entry is left alone when the loader gives none. The lock is then deleted and the stale value returned. Once the lock is won, no key other than the entry and the lock changes. |
| CacheUtil.SpaceMarkerReadsNull | src/main/java/com/hmdp/utils/CacheUtil.java:79-84 | A cached string of Unicode spaces, such as an em space, reads as null without consulting the loader, as hutool's blank test makes it. |
| CacheUtil.HitIgnoresLoader | src/main/java/com/hmdp/utils/CacheUtil.java:79-84 | A live entry answers getObject whatever the loader would say. |
| CacheUtil.NullMarkerShieldsLoader | src/main/java/com/hmdp/utils/CacheUtil.java:85-89 | After the loader reports absence, reads within CACHE_NULL_TTL return null without consulting it. |
| CacheUtil.CachedObjectShieldsLoader | src/main/java/com/hmdp/utils/CacheUtil.java:90-91 | After a load, reads within the TTL return the cached object without consulting the loader. |
| CacheUtil.FreshEntryIgnoresLoader | src/main/java/com/hmdp/utils/CacheUtil.java:112-122 | An unexpired logical entry answers regardless of the loader and of other clients. |
| CacheUtil.UndisturbedRebuild | src/main/java/com/hmdp/utils/CacheUtil.java:125-155 | With no interference, an expired entry is rebuilt with a new logical expiry, the lock is released, no other key changes, and the caller gets the stale value. |
| CacheUtil.RebuildThenFresh | src/main/java/com/hmdp/utils/CacheUtil.java:120-140 | After such a rebuild, reads before the new expiry return the rebuilt object and change nothing. |
| ShopService.QueryById | src/main/java/com/hmdp/service/impl/ShopServiceImpl.java:50-57 | Fails with "店铺不存在！" exactly on the absent marker, or on a miss with no row. Otherwise returns the cached or loaded shop, caching it for CACHE_SHOP_TTL minutes. |
| ShopService.Update | src/main/java/com/hmdp/service/impl/ShopServiceImpl.java:113-124 | A null id is refused with no write at all. Otherwise the row is updated, then the cached copy is deleted. A fault touches neither. |
| ShopService.UpdateThenQuery | src/main/java/com/hmdp/service/impl/ShopServiceImpl.java:120-124 | In the model only, where the row write commits before the cache delete: right after an update, queryById returns the new row. |
| ShopService.UncommittedUpdateRecachesOldRow | src/main/java/com/hmdp/service/impl/ShopServiceImpl.java:120-134 | A query after the cache delete that still sees the old, uncommitted table gets the old row, and caches it again for CACHE_SHOP_TTL minutes. |
| ShopService.RepeatQueryAgrees | src/main/java/com/hmdp/service/impl/ShopServiceImpl.java:52 | Within the marker TTL a repeated query answers as the first did, even if the table changed. |
| ShopTypeService.QueryList | src/main/java/com/hmdp/service/impl/ShopTypeServiceImpl.java:33-48 | A non-blank cache is returned without a query. Otherwise the table's list is returned unchanged, and cached with no TTL only when non-empty. |
| ShopTypeService.LoadedListAnswersForever | src/main/java/com/hmdp/service/impl/ShopTypeServiceImpl.java:38-46 | Once a non-empty list is loaded, every later call returns it without a query. |
| ShopTypeService.EmptyListRequeries | src/main/java/com/hmdp/service/impl/ShopTypeServiceImpl.java:44 | An empty list is not cached, so the next call queries again. |
| UserService.SendCode | src/main/java/com/hmdp/service/impl/UserServiceImpl.java:48-68 | An invalid phone fails and stores nothing. Otherwise the code is readable for LOGIN_CODE_TTL minutes, and the reply is ok whatever the SMS did. |
| UserService.CreateUserByPhone | src/main/java/com/hmdp/service/impl/UserServiceImpl.java:113-120 | One new row, with the phone, a nickname "user_" + suffix and an empty icon; the other rows are unchanged. |
| UserService.Login | src/main/java/com/hmdp/service/impl/UserServiceImpl.java:71-106 | It refuses an invalid phone, and a given code that differs from the stored one. A missing code skips the check. It succeeds exactly otherwise, given at most one user with the phone. A known phone leaves the table unchanged and maps the token to that user's public fields. An unknown phone adds exactly the row createUserByPhone builds and maps the token to it. The token mapping lasts LOGIN_USER_TTL minutes. |
| UserService.SentCodeLogsIn | src/main/java/com/hmdp/service/impl/UserServiceImpl.java:80-83 | A code just sent logs the phone in within its TTL. |
| UserService.OtherCodeRefused | src/main/java/com/hmdp/service/impl/UserServiceImpl.java:80-83 | Any other code is refused, with no user created and no token stored. |
| UserService.SecondLoginReusesUser | src/main/java/com/hmdp/service/impl/UserServiceImpl.java:86-90 | The first login of a phone creates its user, and a second login reuses it. |
| FollowService.CountRows | src/main/java/com/hmdp/service/impl/FollowServiceImpl.java:48-50 | The count is positive exactly when the pair has a row. |
| FollowService.RemoveRows | src/main/java/com/hmdp/service/impl/FollowServiceImpl.java:68-70 | The delete removes every row of the pair and only those. |
| FollowService.FollowOrNot | src/main/java/com/hmdp/service/impl/FollowServiceImpl.java:46-52 | True exactly when the follow row exists. |
| FollowService.IsFollow | src/main/java/com/hmdp/service/impl/FollowServiceImpl.java:56-76 | Follow adds a row, and adds the id to the Redis set only when saved. Unfollow removes the rows, and removes the id only when some row was removed. Other sets are untouched. |
| FollowService.Common | src/main/java/com/hmdp/service/impl/FollowServiceImpl.java:79-93 | Exactly the users in both follow sets that have a row, as public fields. An empty intersection gives an empty list. |
| FollowService.CommonSymmetric | src/main/java/com/hmdp/service/impl/FollowServiceImpl.java:81-83 | common(a, b) == common(b, a). |
| FollowService.FollowThenUnfollow | src/main/java/com/hmdp/service/impl/FollowServiceImpl.java:59-73 | Follow then unfollow leaves no row and no set membership for the pair, and other rows are as before. |
| FollowService.FollowIsSeen | src/main/java/com/hmdp/service/impl/FollowServiceImpl.java:59-66 | A saved follow is reported by followOrNot and is in the set. |
| BlogService.PutScores | src/main/java/com/hmdp/service/impl/BlogServiceImpl.java:88 | Writing back a like set makes it exactly the key's members and scores, and changes no other key. |
| BlogService.LikeBlogById | src/main/java/com/hmdp/service/impl/BlogServiceImpl.java:74-92 | A non-liker adds one to the counter and joins the set. A liker subtracts one and leaves it. Nothing changes when the row is missing. |
| BlogService.LikeKeepsCounterInStep | src/main/java/com/hmdp/service/impl/BlogServiceImpl.java:78-90 | The counter minus the set's size is kept by every toggle. |
| BlogService.LikeThenUnlikeRestores | src/main/java/com/hmdp/service/impl/BlogServiceImpl.java:78-90 | Like then unlike restores the store and the table exactly. |
| BlogService.UnlikeThenLikeRestoresMembership | src/main/java/com/hmdp/service/impl/BlogServiceImpl.java:78-90 | Unlike then like restores the table and the membership; only the score moves. |
| BlogService.TopLikers | src/main/java/com/hmdp/service/impl/BlogServiceImpl.java:114 | ZRANGE 0 4 is the first min(5, n) entries. |
| BlogService.UsersInOrder | src/main/java/com/hmdp/service/impl/BlogServiceImpl.java:120-125 | The users of the ids, in id order, skipping missing rows. |
| BlogService.QueryBlogLikes | src/main/java/com/hmdp/service/impl/BlogServiceImpl.java:111-127 | At most five likers, drawn from the first five by score. An empty set gives an empty list. When every liker has a row, all of the first five are shown, the i-th shown being the i-th in ZRANGE order. |
| BlogService.ShownLikersAreEarliest | src/main/java/com/hmdp/service/impl/BlogServiceImpl.java:114 | Every liker shown liked no later than any liker not shown. |
| BlogService.IsBlogLiked | src/main/java/com/hmdp/service/impl/BlogServiceImpl.java:203-211 | Sets isLike to whether the viewer is in the like set. With no viewer the blog is unchanged. No other field changes. |
| BlogService.LikeIsSeen | src/main/java/com/hmdp/service/impl/BlogServiceImpl.java:209-210 | After a like isBlogLiked reports true, and after the unlike false. |
| BlogService.TrailingRun | src/main/java/com/hmdp/service/impl/BlogServiceImpl.java:149-158 | The length of the maximal run of equal scores at the end of the page. |
| BlogService.CursorStep | src/main/java/com/hmdp/service/impl/BlogServiceImpl.java:151-157 | One loop iteration moves the cursor past one more tuple. |
| BlogService.FeedCursor | src/main/java/com/hmdp/service/impl/BlogServiceImpl.java:146-158 | The ids keep tuple order and minTime ends as the last score. offset is the trailing run of that score, one more when an all-zero page is scanned. |
| BlogService.CursorOffsetCountsLastRun | src/main/java/com/hmdp/service/impl/BlogServiceImpl.java:146-158 | With a non-zero first score, offset is exactly the number of tuples at minTime. |
| BlogService.BlogsInOrder | src/main/java/com/hmdp/service/impl/BlogServiceImpl.java:161-163 | The blogs of the ids, in id order, when every id has a row. |
| BlogService.QueryBlogFollow | src/main/java/com/hmdp/service/impl/BlogServiceImpl.java:136-173 | An empty page gives no cursor. Otherwise the blogs come in page order with isLike set, and minTime and offset are as the loop computes them. |
| BlogService.PushToFeedsSparesOthers | src/main/java/com/hmdp/service/impl/BlogServiceImpl.java:186-191 | The fan-out touches no key but followers' feeds. |
| BlogService.PushToFeedsReachesFollowers | src/main/java/com/hmdp/service/impl/BlogServiceImpl.java:186-191 | Every follower's feed gains the blog, scored with the clock reading taken on the loop pass over that follower's last follow row; the rest of that feed is unchanged. |
| BlogService.SaveBlog | src/main/java/com/hmdp/service/impl/BlogServiceImpl.java:176-194 | A failed insert fails with no feed writes. Otherwise the blog is stored with its author and returned by id, every follower's feed gets it, scored with the clock reading of that follower's loop pass, and nothing else changes. |

## Left out

**Not part of this model**

- secKill.lua and unLock.lua. Their behaviour is stated as explicit assumptions
  (`AdmissionScript.RunScript`, `RedisDistributedLock.UnlockScript`).
- RedisConstants.java and SystemConstants.java. The key prefixes and TTLs in
  `RedisConstants` follow the upstream project. No proof depends on their values
  beyond the TTLs being positive.

**Concurrency**

- Executors, `queue.take()` blocking, `CACHE_REBUILD_EXECUTOR`, and the race on
  the proxy field set by the request path. The worker is a sequential loop over
  the queued orders, and a rebuild runs inline: the request waits on
  `future.get()`.
- Interleaving of other clients in `queryWithLogicExpire`. Their effect is the
  store observed when the lock is attempted (the `resume` parameter).
- ShopService.Update: the `ReentrantLock`, `CountDownLatch` and
  `LockSupport.park()` lines after the cache delete are left out. In the code the
  request thread parks there, and its transaction does not commit until it is
  unparked. The model returns ok right after the delete.

**Infrastructure**

- Redisson `RLock` internals (reentrancy, watchdog). The per-user lock is the set
  of lock names other parties hold.
- RabbitMQ transport and `MqConfig`. A publish either appends the message or
  fails, as a parameter says. Every delivered message reaches `onMessage` once.

**Serialisation and libraries**

- hutool JSON. Values are stored as objects and decoding is the identity. A value
  of the wrong shape is an exception (`JSONException`, or a
  `NullPointerException` for a missing expiry).
- hutool's blank test follows `CharUtil.isBlankChar` of the hutool 5.8 line, over
  Java 8's Unicode tables (`JavaStrings.IsBlankChar`). Other hutool releases differ
  in the last few extra characters (U+3164, U+2800, U+180E).
- Bean copying, MyBatis query builders and `ORDER BY FIELD`. Tables are maps or
  sequences, and `updateById` replaces the whole row rather than only its non-null
  fields.
- `RegexUtils`, `RandomUtil` and `UUID`. Their results (phone validity, code,
  token, nickname suffix) are inputs. The id a database insert assigns is an input
  assumed fresh.

**Time**

- `LocalDateTime.now()` and the `yyyy:MM:dd` rendering. The clock reading and the
  date string are inputs.
- The two separate `LocalDateTime.now()` reads of the sale-window check
  (VoucherOrderServiceImpl.java:78 and :81) are one reading `now` in
  `Seckill.WindowGate`. `Seckill.Admit` passes the same `now` to
  `RedisIdGenerator.NextId`, which stands for `nextId`'s own
  `LocalDateTime.now()` (RedisIDGenerator.java:21). A clock that advances
  between these three reads is not modelled.
- `TimeUnit` is limited to seconds, minutes and hours, without saturation on
  overflow.

**Redis value shapes**

- Sorted-set scores are integers, not doubles.
- ZRANGE's order among equal scores is not modelled. The ranked member list is an
  input required to be consistent with the scores.
- The inbox range query of `queryBlogFollow` is an input page, and its `max` and
  `offset` arguments are not modelled.
- Each service uses one Redis value type: shops, shop types and user tokens each
  have their own store. The user token is an object value rather than a hash.

**Operations and faults**

- `queryBlogById`, `queryHotBlog` and `updateBlogByUserInfo`. These are the
  author-name and icon enrichment of listed blogs; only `isBlogLiked` is modelled.
- Database faults on most reads. A read can fail only where its result is
  already an input: the loader passed to `CacheUtil`, and the shop-type list query
  `ShopTypeService.QueryList` receives. There the exception propagates unchanged.
  `getById` in `queryById` and the follow, blog and user queries cannot fail.
  Writes fail where the source's logic branches on it.
- CacheUtil.SaveObject: the timeout is a `nat`. A negative `long` timeout, which
  Redis also rejects, is not modelled. The same holds for the timeouts of
  CacheUtil.SaveObjectWithLogicExpire, CacheUtil.GetObject and
  CacheUtil.QueryWithLogicExpire.
- RedisDistributedLock.TryLock: a timeout that is not positive is modelled as
  Redis's error reply to SET with such an EX. How the Spring client passes such a
  timeout on is not part of this model.
- ShopService.UpdateThenQuery: read-your-writes holds only in the model. In the
  code the transaction commits after the cache delete, and the request thread
  parks before it commits, so a query in between re-caches the old row. That case
  is `ShopService.UncommittedUpdateRecachesOldRow`.
- UserService.Login: it requires the id a new row would get to be unused, because
  the database's id assignment is not modelled.
- UserService.CreateUserByPhone: it requires the id a new row would get to be
  unused, for the same reason.
- BlogService.SaveBlog: it requires the id the insert assigns to be unused,
  because the database's id assignment is not modelled.
- VoucherOrderService.CreateVoucherOrder: the primary key of `tb_voucher_order`
  is not modelled. Saving an order whose id is already stored would fail in the
  database with a duplicate-key error and roll back, while the model appends it.
  The request path gives every order a newly generated id, so this matters only
  when the same order is handled twice.
- BlogService.QueryBlogLikes: it requires the ranked list to be a valid ZRANGE
  order of the like set. It does not fix which order ties take.

=== FILE: admission_script.dfy ===
/** The admission script secKill.lua is not part of this model. This module states,
    as an explicit assumption, the behaviour the front end relies on when it reads
    the script's result code (one atomic step: refuse with 1 when the stock is
    exhausted, with 2 when the user already ordered, otherwise decrement the stock,
    record the user and return 0), and
    composes it with the queue variant's front end to show what the two together
    guarantee for one voucher: no oversell, and at most one order per user. */
module AdmissionScript {
  import opened Wrappers
  import opened JavaLong
  import opened KvStore
  import opened Seckill
  import opened VoucherOrderService

  /** The voucher's admission state in Redis: remaining stock and the users admitted. */
  datatype VoucherStock = VoucherStock(stock: int, ordered: set<Long>)

  /** Assumed behaviour of secKill.lua, as one indivisible step. */
  function RunScript(v: VoucherStock, userId: Long): (r: (Long, VoucherStock))
    ensures r.0 == 0 <==> v.stock > 0 && userId !in v.ordered
    ensures r.0 == 1 <==> v.stock <= 0
    ensures r.0 == 0 ==> r.1.stock == v.stock - 1 && r.1.ordered == v.ordered + {userId}
    ensures r.0 != 0 ==> r.1 == v
  {
    if v.stock <= 0 then (1, v)
    else if userId in v.ordered then (2, v)
    else (0, VoucherStock(v.stock - 1, v.ordered + {userId}))
  }

  /** A flash sale of one voucher: the front end's state and the script's state. */
  datatype Sale<V> = Sale(intake: IntakeState<V>, voucher: VoucherStock)

  datatype Request = Request(userId: Long, now: Long, date: string)

  /** Whether the request arrives inside the voucher's sale window. */
  predicate GateOpen<V>(sale: Sale<V>, beginTime: int, endTime: int, req: Request) {
    WindowGate(SeckillVoucherRedis(sale.voucher.stock, beginTime, endTime), req.now).None?
  }

  /** One request through the queue front end. The script runs only behind the
      window gate; its code is what the front end then acts on. */
  function Step<V>(sale: Sale<V>, voucherId: Long, beginTime: int, endTime: int, req: Request)
    : (r: (Outcome<Reply<Long>>, Sale<V>))
    ensures !GateOpen(sale, beginTime, endTime, req) ==>
              r.0 == Returned(Fail(WindowGate(SeckillVoucherRedis(sale.voucher.stock, beginTime, endTime), req.now).value))
              && r.1 == sale
    ensures GateOpen(sale, beginTime, endTime, req) && sale.voucher.stock <= 0 ==>
              r == (Returned(Fail(SOLD_OUT)), sale)
    ensures GateOpen(sale, beginTime, endTime, req) && sale.voucher.stock > 0 && req.userId in sale.voucher.ordered ==>
              r == (Returned(Fail(DUPLICATE)), sale)
    ensures r.0.Returned? && r.0.value.Ok? ==>
              && r.1.voucher.stock == sale.voucher.stock - 1
              && req.userId !in sale.voucher.ordered
              && r.1.voucher.ordered == sale.voucher.ordered + {req.userId}
              && r.1.intake.queue == sale.intake.queue + [VoucherOrder(r.0.value.data, voucherId, req.userId)]
    ensures !(r.0.Returned? && r.0.value.Ok?) ==> r.1.intake.queue == sale.intake.queue
    ensures r.1.voucher.stock == sale.voucher.stock ||
            (0 < sale.voucher.stock && r.1.voucher.stock == sale.voucher.stock - 1)
    ensures sale.voucher.ordered <= r.1.voucher.ordered
  {
    var svr := SeckillVoucherRedis(sale.voucher.stock, beginTime, endTime);
    var (code, voucher') := RunScript(sale.voucher, req.userId);
    var (reply, intake') := SecKillByVoucherId(sale.intake, Some(svr), voucherId, req.userId, req.now, req.date, code);
    (reply, Sale(intake', if WindowGate(svr, req.now).None? then voucher' else sale.voucher))
  }

  /** A sequence of requests, in the order the store serialises them. */
  function Run<V>(sale: Sale<V>, voucherId: Long, beginTime: int, endTime: int, reqs: seq<Request>): Sale<V>
    decreases |reqs|
  {
    if reqs == [] then sale
    else Run(Step(sale, voucherId, beginTime, endTime, reqs[0]).1, voucherId, beginTime, endTime, reqs[1..])
  }

  /** What the sale keeps true: the stock never goes negative, queued orders plus
      remaining stock never exceed the initial stock, and every queued order is for
      this voucher, by an admitted user, with no user queued twice. */
  predicate SaleInvariant<V>(sale: Sale<V>, voucherId: Long, initialStock: int) {
    var q := sale.intake.queue;
    && sale.voucher.stock >= 0
    && |q| + sale.voucher.stock <= initialStock
    && (forall i :: 0 <= i < |q| ==> q[i].voucherId == voucherId && q[i].userId in sale.voucher.ordered)
    && (forall i, j :: 0 <= i < j < |q| ==> q[i].userId != q[j].userId)
  }

  /** The invariant survives any change that either appends one order, for an
      admitted user newly recorded and one unit of stock, or leaves the queue alone
      while keeping or decrementing a positive stock. */
  lemma InvariantAcrossAdmission<V>(sale: Sale<V>, sale': Sale<V>, admitted: Option<Long>, userId: Long,
                                    voucherId: Long, initialStock: int)
    requires SaleInvariant(sale, voucherId, initialStock)
    requires admitted.Some? ==>
               && sale'.voucher.stock == sale.voucher.stock - 1
               && userId !in sale.voucher.ordered
               && sale'.voucher.ordered == sale.voucher.ordered + {userId}
               && sale'.intake.queue == sale.intake.queue + [VoucherOrder(admitted.value, voucherId, userId)]
    requires admitted.None? ==> sale'.intake.queue == sale.intake.queue
    requires sale'.voucher.stock == sale.voucher.stock ||
             (0 < sale.voucher.stock && sale'.voucher.stock == sale.voucher.stock - 1)
    requires sale.voucher.ordered <= sale'.voucher.ordered
    ensures SaleInvariant(sale', voucherId, initialStock)
  {
    var q, q' := sale.intake.queue, sale'.intake.queue;
    if admitted.Some? {
      assert forall i :: 0 <= i < |q| ==> q'[i] == q[i] && q[i].userId != userId;
    }
  }

  lemma StepPreservesInvariant<V>(sale: Sale<V>, voucherId: Long, beginTime: int, endTime: int, req: Request,
                                  initialStock: int)
    requires SaleInvariant(sale, voucherId, initialStock)
    ensures SaleInvariant(Step(sale, voucherId, beginTime, endTime, req).1, voucherId, initialStock)
  {
    var r := Step(sale, voucherId, beginTime, endTime, req);
    var admitted := if r.0.Returned? && r.0.value.Ok? then Some(r.0.value.data) else None;
    InvariantAcrossAdmission(sale, r.1, admitted, req.userId, voucherId, initialStock);
  }

  lemma {:induction false} RunPreservesInvariant<V>(sale: Sale<V>, voucherId: Long, beginTime: int, endTime: int,
                                                    reqs: seq<Request>, initialStock: int)
    requires SaleInvariant(sale, voucherId, initialStock)
    ensures SaleInvariant(Run(sale, voucherId, beginTime, endTime, reqs), voucherId, initialStock)
    decreases |reqs|
  {
    if reqs != [] {
      StepPreservesInvariant(sale, voucherId, beginTime, endTime, reqs[0], initialStock);
      RunPreservesInvariant(Step(sale, voucherId, beginTime, endTime, reqs[0]).1, voucherId, beginTime, endTime,
                            reqs[1..], initialStock);
    }
  }

  /** No oversell and one order per user: starting from a sale with stock S and
      nothing ordered, any sequence of requests queues at most S orders, all for
      this voucher, and no user twice. */
  lemma {:induction false} NoOversellOnePerUser<V>(sale: Sale<V>, voucherId: Long, beginTime: int, endTime: int, reqs: seq<Request>)
    requires sale.intake.queue == [] && sale.voucher.ordered == {} && sale.voucher.stock >= 0
    ensures var q := Run(sale, voucherId, beginTime, endTime, reqs).intake.queue;
            && |q| <= sale.voucher.stock
            && (forall i :: 0 <= i < |q| ==> q[i].voucherId == voucherId)
            && (forall i, j :: 0 <= i < j < |q| ==> q[i].userId != q[j].userId)
  {
    RunPreservesInvariant(sale, voucherId, beginTime, endTime, reqs, sale.voucher.stock);
  }
}

=== FILE: blog_service.dfy ===
/** Blog likes (a sorted set of likers per blog, scored by the time of the like,
    alongside a like counter in the blog row), the push-style feed (a sorted set
    per follower, scored by publication time), and the cursor computed when a
    follower scrolls that feed. Sorted-set members are ids; in Redis they are the
    ids' decimal text, which is injective, so nothing is lost. Scores are
    milliseconds, taken as integers. */
module BlogService {
  import opened Wrappers
  import opened JavaLong
  import opened JavaStrings
  import opened RedisConstants
  import opened UserService
  import opened FollowService

  datatype Blog = Blog(id: Option<Long>, userId: Option<Long>, title: string, liked: int, isLike: Option<bool>)

  type BlogTable = map<Long, Blog>

  /** A sorted set: member to score. */
  type ZSet = map<Long, int>

  type ZSetStore = map<string, ZSet>

  const SAVE_FAILED: string := "上传博文失败！"
  const LIKES_SHOWN: nat := 5

  /** The members and scores under `key`; an absent key is an empty sorted set. */
  function Scores(z: ZSetStore, key: string): ZSet {
    if key in z then z[key] else map[]
  }

  /** Writes a sorted set back; Redis drops a key whose sorted set becomes empty. */
  function PutScores(z: ZSetStore, key: string, m: ZSet): (r: ZSetStore)
    ensures Scores(r, key) == m
    ensures forall k :: k != key ==> (k in r <==> k in z) && (k in z ==> r[k] == z[k])
  {
    if m == map[] then z - {key} else z[key := m]
  }

  /** No key holds an empty sorted set, as in Redis. */
  predicate WellFormed(z: ZSetStore) {
    forall k :: k in z ==> z[k] != map[]
  }

  /** `String.valueOf` of a possibly null id, as string concatenation renders it. */
  function IdText(id: Option<Long>): string {
    if id.Some? then LongToString(id.value) else "null"
  }

  function LikedKey(id: Long): string {
    BLOG_LIKED_KEY + LongToString(id)
  }

  function FeedKey(userId: Long): string {
    FEED_KEY + LongToString(userId)
  }

  /** likeBlogById: a user who has not liked the blog adds one to its counter and,
      only if the row was updated, joins the like set with the current time; a user
      who has liked it subtracts one and, only if the row was updated, leaves the
      set. The update succeeds exactly when the blog row exists. */
  function LikeBlogById(z: ZSetStore, db: BlogTable, id: Long, userId: Long, nowMillis: int)
    : (r: (Reply<Unit>, ZSetStore, BlogTable))
    ensures r.0 == Ok(Unit)
    ensures id !in db ==> r.1 == z && r.2 == db
    ensures id in db && userId !in Scores(z, LikedKey(id)) ==>
              && r.2 == db[id := db[id].(liked := db[id].liked + 1)]
              && Scores(r.1, LikedKey(id)) == Scores(z, LikedKey(id))[userId := nowMillis]
    ensures id in db && userId in Scores(z, LikedKey(id)) ==>
              && r.2 == db[id := db[id].(liked := db[id].liked - 1)]
              && Scores(r.1, LikedKey(id)) == Scores(z, LikedKey(id)) - {userId}
    ensures forall k :: k != LikedKey(id) ==> (k in r.1 <==> k in z) && (k in z ==> r.1[k] == z[k])
    ensures WellFormed(z) ==> WellFormed(r.1)
  {
    var key := LikedKey(id);
    var likers := Scores(z, key);
    if userId !in likers then
      if id in db then (Ok(Unit), PutScores(z, key, likers[userId := nowMillis]), db[id := db[id].(liked := db[id].liked + 1)])
      else (Ok(Unit), z, db)
    else
      if id in db then (Ok(Unit), PutScores(z, key, likers - {userId}), db[id := db[id].(liked := db[id].liked - 1)])
      else (Ok(Unit), z, db)
  }

  /** The like counter moves in step with the like set: their difference is kept. */
  lemma LikeKeepsCounterInStep(z: ZSetStore, db: BlogTable, id: Long, userId: Long, nowMillis: int)
    requires id in db
    ensures var (_, z', db') := LikeBlogById(z, db, id, userId, nowMillis);
            db'[id].liked - |Scores(z', LikedKey(id)).Keys| == db[id].liked - |Scores(z, LikedKey(id)).Keys|
  {
    var likers := Scores(z, LikedKey(id));
    if userId !in likers {
      assert likers[userId := nowMillis].Keys == likers.Keys + {userId};
    } else {
      assert (likers - {userId}).Keys == likers.Keys - {userId};
    }
  }

  /** A like undone by the same user restores the store and the table exactly. */
  lemma LikeThenUnlikeRestores(z: ZSetStore, db: BlogTable, id: Long, userId: Long, t1: int, t2: int)
    requires WellFormed(z)
    requires userId !in Scores(z, LikedKey(id))
    ensures var (_, z1, db1) := LikeBlogById(z, db, id, userId, t1);
            LikeBlogById(z1, db1, id, userId, t2).1 == z && LikeBlogById(z1, db1, id, userId, t2).2 == db
  {
    var key := LikedKey(id);
    var likers := Scores(z, key);
    if id in db {
      var (_, z1, db1) := LikeBlogById(z, db, id, userId, t1);
      assert likers[userId := t1] - {userId} == likers;
      var z2 := LikeBlogById(z1, db1, id, userId, t2).1;
      assert z2 == PutScores(z1, key, likers);
      if likers == map[] {
        assert key !in z;
      } else {
        assert key in z && z[key] == likers;
      }
      assert z2 == z;
    }
  }

  /** An unlike followed by a like restores the table and the membership of the like
      set; only the liker's score moves to the time of the second like. */
  lemma UnlikeThenLikeRestoresMembership(z: ZSetStore, db: BlogTable, id: Long, userId: Long, t1: int, t2: int)
    requires id in db
    requires userId in Scores(z, LikedKey(id))
    ensures var (_, z1, db1) := LikeBlogById(z, db, id, userId, t1);
            var (_, z2, db2) := LikeBlogById(z1, db1, id, userId, t2);
            db2 == db && Scores(z2, LikedKey(id)) == Scores(z, LikedKey(id))[userId := t2]
  {
    var likers := Scores(z, LikedKey(id));
    assert (likers - {userId})[userId := t2] == likers[userId := t2];
  }

  /** `ranked` lists the members of `m` without repetition, by ascending score, as
      ZRANGE returns them. */
  predicate RankedBy(ranked: seq<Long>, m: ZSet) {
    && (forall i :: 0 <= i < |ranked| ==> ranked[i] in m)
    && (forall x :: x in m ==> x in ranked)
    && (forall i, j :: 0 <= i < j < |ranked| ==> ranked[i] != ranked[j] && m[ranked[i]] <= m[ranked[j]])
  }

  /** The users with the given ids, in the order of the ids, skipping ids with no
      row (an IN query ordered by FIELD). */
  function UsersInOrder(ids: seq<Long>, users: UserTable): (r: seq<UserDTO>)
    ensures |r| <= |ids|
    ensures forall d :: d in r ==> exists i :: 0 <= i < |ids| && ids[i] in users && d == ToDto(users[ids[i]])
    ensures (forall i :: 0 <= i < |ids| ==> ids[i] in users) ==>
              |r| == |ids| && forall i :: 0 <= i < |ids| ==> r[i] == ToDto(users[ids[i]])
  {
    if ids == [] then []
    else
      var rest := UsersInOrder(ids[1..], users);
      assert forall d :: d in rest ==> exists i :: 1 <= i < |ids| && ids[i] in users && d == ToDto(users[ids[i]]) by {
        forall d | d in rest ensures exists i :: 1 <= i < |ids| && ids[i] in users && d == ToDto(users[ids[i]]) {
          var i :| 0 <= i < |ids[1..]| && ids[1..][i] in users && d == ToDto(users[ids[1..][i]]);
          assert ids[i + 1] == ids[1..][i];
        }
      }
      if ids[0] in users then [ToDto(users[ids[0]])] + rest else rest
  }

  /** ZRANGE key 0 4: the first five entries, or all of them when there are fewer. */
  function TopLikers(ranked: seq<Long>): (r: seq<Long>)
    ensures |r| == if |ranked| < LIKES_SHOWN then |ranked| else LIKES_SHOWN
    ensures r == ranked[..|r|]
  {
    if |ranked| < LIKES_SHOWN then ranked else ranked[..LIKES_SHOWN]
  }

  /** queryBlogLikes: the first five likers (the earliest, by score), as public user
      fields in that order; no likers gives an empty list. `ranked` is the blog's
      like set as ZRANGE orders it. */
  function QueryBlogLikes(z: ZSetStore, users: UserTable, id: Long, ranked: seq<Long>): (r: Reply<seq<UserDTO>>)
    requires RankedBy(ranked, Scores(z, LikedKey(id)))
    ensures r.Ok? && |r.data| <= LIKES_SHOWN
    ensures Scores(z, LikedKey(id)) == map[] ==> r.data == []
    ensures forall d :: d in r.data ==>
              exists i :: 0 <= i < |ranked| && i < LIKES_SHOWN && ranked[i] in users && d == ToDto(users[ranked[i]])
    ensures (forall x :: x in Scores(z, LikedKey(id)) ==> x in users) ==>
              && |r.data| == (if |ranked| < LIKES_SHOWN then |ranked| else LIKES_SHOWN)
              && forall i :: 0 <= i < |r.data| ==> r.data[i] == ToDto(users[ranked[i]])
  {
    var top := TopLikers(ranked);
    if top == [] then Ok([])
    else Ok(UsersInOrder(top, users))
  }

  /** The likers shown are the earliest: every shown liker liked no later than any
      liker not shown. */
  lemma ShownLikersAreEarliest(z: ZSetStore, id: Long, ranked: seq<Long>, i: nat, other: Long)
    requires RankedBy(ranked, Scores(z, LikedKey(id)))
    requires i < |TopLikers(ranked)|
    requires other in Scores(z, LikedKey(id)) && other !in TopLikers(ranked)
    ensures Scores(z, LikedKey(id))[TopLikers(ranked)[i]] <= Scores(z, LikedKey(id))[other]
  {
    var top := TopLikers(ranked);
    var j :| 0 <= j < |ranked| && ranked[j] == other;
    assert forall k :: 0 <= k < |top| ==> top[k] == ranked[k];
    assert forall k :: 0 <= k < |top| ==> ranked[k] != other;
    assert top[i] == ranked[i];
  }

  /** isBlogLiked: with a logged-in user, records whether that user is in the
      blog's like set; with none, leaves the blog as it was. */
  function IsBlogLiked(blog: Blog, viewer: Option<UserDTO>, z: ZSetStore): (r: Blog)
    ensures viewer.None? ==> r == blog
    ensures viewer.Some? ==> r.isLike == Some(viewer.value.id in Scores(z, BLOG_LIKED_KEY + IdText(blog.id)))
    ensures r.(isLike := blog.isLike) == blog
  {
    if viewer.None? then blog
    else blog.(isLike := Some(viewer.value.id in Scores(z, BLOG_LIKED_KEY + IdText(blog.id))))
  }

  /** A like is seen by isBlogLiked, and an unlike removes it again. */
  lemma LikeIsSeen(z: ZSetStore, db: BlogTable, id: Long, viewer: UserDTO, t1: int, t2: int)
    requires id in db && db[id].id == Some(id)
    requires viewer.id !in Scores(z, LikedKey(id))
    ensures var (_, z1, db1) := LikeBlogById(z, db, id, viewer.id, t1);
            var (_, z2, db2) := LikeBlogById(z1, db1, id, viewer.id, t2);
            && IsBlogLiked(db1[id], Some(viewer), z1).isLike == Some(true)
            && IsBlogLiked(db2[id], Some(viewer), z2).isLike == Some(false)
  {
  }

  /** A feed entry as the inbox query returns it: blog id and publication time. */
  datatype ScoredMember = ScoredMember(member: Long, score: int)

  /** What a follower's feed page returns: nothing when the page is empty,
      otherwise the blogs and the cursor for the next page. */
  datatype FeedPage = NoFeed | Page(blogs: seq<Blog>, offset: int, minTime: int)

  /** How many entries at the end of `ts` share the last entry's score. */
  function TrailingRun(ts: seq<ScoredMember>): (r: nat)
    ensures |ts| == 0 ==> r == 0
    ensures |ts| > 0 ==> 1 <= r <= |ts|
    ensures forall j :: |ts| - r <= j < |ts| ==> ts[j].score == ts[|ts| - 1].score
    ensures r < |ts| ==> ts[|ts| - r - 1].score != ts[|ts| - 1].score
  {
    if |ts| <= 1 then |ts|
    else if ts[|ts| - 2].score == ts[|ts| - 1].score then TrailingRun(ts[..|ts| - 1]) + 1
    else 1
  }

  /** The cursor after the first `n` entries of `ts`: `minTime` is the last score
      seen (0 before any) and `offset` the length of the trailing run of that
      score, one more when the run reaches back to the start with score 0. */
  predicate CursorAt(ts: seq<ScoredMember>, n: nat, minTime: int, offset: int)
    requires n <= |ts|
  {
    && (n == 0 ==> minTime == 0)
    && (n > 0 ==> minTime == ts[n - 1].score)
    && offset == TrailingRun(ts[..n]) + (if TrailingRun(ts[..n]) == n && minTime == 0 then 1 else 0)
  }

  /** One iteration of the cursor loop moves the cursor past one more entry. */
  lemma CursorStep(ts: seq<ScoredMember>, i: nat, minTime: int, offset: int)
    requires i < |ts| && CursorAt(ts, i, minTime, offset)
    ensures ts[i].score == minTime ==> CursorAt(ts, i + 1, minTime, offset + 1)
    ensures ts[i].score != minTime ==> CursorAt(ts, i + 1, ts[i].score, 1)
  {
    assert ts[..i + 1][..i] == ts[..i];
  }

  /** The cursor loop of queryBlogFollow. `minTime` starts at 0 and `offset` at 1;
      each entry either extends the current run of equal scores or starts a new
      one. So `minTime` ends as the last score and `offset` as the length of the
      trailing run of that score, except that a run of score 0 reaching back to the
      first entry counts one more, because the initial `minTime` of 0 already
      counts as a run of length 1. */
  method FeedCursor(ts: seq<ScoredMember>) returns (ids: seq<Long>, minTime: int, offset: int)
    ensures |ids| == |ts| && forall i :: 0 <= i < |ts| ==> ids[i] == ts[i].member
    ensures ts == [] ==> minTime == 0 && offset == 1
    ensures ts != [] ==> minTime == ts[|ts| - 1].score
    ensures offset == TrailingRun(ts) + (if TrailingRun(ts) == |ts| && minTime == 0 then 1 else 0)
  {
    minTime := 0;
    offset := 1;
    ids := [];
    var i := 0;
    while i < |ts|
      invariant 0 <= i <= |ts|
      invariant |ids| == i && forall j :: 0 <= j < i ==> ids[j] == ts[j].member
      invariant CursorAt(ts, i, minTime, offset)
    {
      ids := ids + [ts[i].member];
      CursorStep(ts, i, minTime, offset);
      if ts[i].score == minTime {
        offset := offset + 1;
      } else {
        minTime := ts[i].score;
        offset := 1;
      }
      i := i + 1;
    }
    assert ts[..|ts|] == ts;
  }

  /** When the first score is not 0 (publication times never are), the offset is
      exactly the number of entries sharing the smallest time seen, which is how
      many the next page must skip at `max = minTime`. */
  lemma CursorOffsetCountsLastRun(ts: seq<ScoredMember>, ids: seq<Long>, minTime: int, offset: int)
    requires ts != [] && ts[0].score != 0
    requires minTime == ts[|ts| - 1].score
    requires offset == TrailingRun(ts) + (if TrailingRun(ts) == |ts| && minTime == 0 then 1 else 0)
    ensures offset == TrailingRun(ts)
    ensures forall j :: |ts| - offset <= j < |ts| ==> ts[j].score == minTime
  {
    if TrailingRun(ts) == |ts| {
      assert ts[0].score == ts[|ts| - 1].score;
    }
  }

  /** The blogs with the given ids, in the order of the ids, skipping ids with no
      row (an IN query ordered by FIELD). */
  function BlogsInOrder(ids: seq<Long>, db: BlogTable): (r: seq<Blog>)
    ensures |r| <= |ids|
    ensures (forall i :: 0 <= i < |ids| ==> ids[i] in db) ==>
              |r| == |ids| && forall i :: 0 <= i < |ids| ==> r[i] == db[ids[i]]
  {
    if ids == [] then []
    else (if ids[0] in db then [db[ids[0]]] else []) + BlogsInOrder(ids[1..], db)
  }

  /** queryBlogFollow, from the page of the viewer's inbox that the range query
      returned (`ts`, newest first): an empty page gives an empty list with no
      cursor; otherwise the page's blogs in page order, each marked with whether
      the viewer liked it, and the cursor computed by the loop. */
  method QueryBlogFollow(ts: seq<ScoredMember>, db: BlogTable, z: ZSetStore, viewer: UserDTO) returns (r: FeedPage)
    ensures r.NoFeed? <==> ts == []
    ensures r.Page? ==> r.minTime == ts[|ts| - 1].score
    ensures r.Page? ==> r.offset == TrailingRun(ts) + (if TrailingRun(ts) == |ts| && r.minTime == 0 then 1 else 0)
    ensures r.Page? ==> |r.blogs| <= |ts|
    ensures r.Page? && (forall i :: 0 <= i < |ts| ==> ts[i].member in db) ==>
              |r.blogs| == |ts| &&
              forall i :: 0 <= i < |ts| ==>
                r.blogs[i] == db[ts[i].member].(isLike := Some(viewer.id in Scores(z, BLOG_LIKED_KEY + IdText(db[ts[i].member].id))))
  {
    if ts == [] {
      return NoFeed;
    }
    var ids, minTime, offset := FeedCursor(ts);
    var found := BlogsInOrder(ids, db);
    var blogs := seq(|found|, i requires 0 <= i < |found| => IsBlogLiked(found[i], Some(viewer), z));
    r := Page(blogs, offset, minTime);
  }

  /** The follower ids of `authorId` among the follow rows. */
  function FollowersOf(rows: FollowTable, authorId: Long): set<Long> {
    set i | 0 <= i < |rows| && rows[i].followUserId == authorId :: rows[i].userId
  }

  lemma FollowersOfSplit(rows: FollowTable, authorId: Long)
    requires rows != []
    ensures FollowersOf(rows, authorId)
         == FollowersOf(rows[1..], authorId) + (if rows[0].followUserId == authorId then {rows[0].userId} else {})
  {
    var tail := rows[1..];
    forall u | u in FollowersOf(rows, authorId)
      ensures u in FollowersOf(tail, authorId) || (rows[0].followUserId == authorId && u == rows[0].userId)
    {
      var i :| 0 <= i < |rows| && rows[i].followUserId == authorId && rows[i].userId == u;
      if i > 0 {
        assert tail[i - 1] == rows[i];
      }
    }
    forall u | u in FollowersOf(tail, authorId)
      ensures u in FollowersOf(rows, authorId)
    {
      var i :| 0 <= i < |tail| && tail[i].followUserId == authorId && tail[i].userId == u;
      assert rows[i + 1] == tail[i];
    }
  }

  /** The saveBlog loop: for every follow row of the author, add the blog to that
      follower's feed with the time read by `System.currentTimeMillis()` on that
      pass; `clock[i]` is the reading taken when row i is visited. */
  function PushToFeeds(z: ZSetStore, rows: FollowTable, authorId: Long, blogId: Long, clock: seq<int>): ZSetStore
    requires |clock| == |rows|
    decreases |rows|
  {
    if rows == [] then z
    else PushToFeeds(PushOne(z, rows[0], authorId, blogId, clock[0]), rows[1..], authorId, blogId, clock[1..])
  }

  /** One iteration of that loop. */
  function PushOne(z: ZSetStore, row: Follow, authorId: Long, blogId: Long, nowMillis: int): ZSetStore {
    if row.followUserId == authorId
    then z[FeedKey(row.userId) := Scores(z, FeedKey(row.userId))[blogId := nowMillis]]
    else z
  }

  /** Row `j` is the last row saying that `u` follows `authorId`: the loop's last
      write to `u`'s feed happens there. */
  predicate LastFeedRow(rows: FollowTable, authorId: Long, u: Long, j: int) {
    && 0 <= j < |rows|
    && rows[j].followUserId == authorId && rows[j].userId == u
    && forall i :: j < i < |rows| ==> !(rows[i].followUserId == authorId && rows[i].userId == u)
  }

  /** The last follow row of `u` in the tail is the last one in the whole table. */
  lemma LastFeedRowShifts(rows: FollowTable, authorId: Long, u: Long, j: int)
    requires rows != [] && LastFeedRow(rows[1..], authorId, u, j)
    ensures LastFeedRow(rows, authorId, u, j + 1)
  {
    forall i | j + 1 < i < |rows|
      ensures !(rows[i].followUserId == authorId && rows[i].userId == u)
    {
      assert rows[i] == rows[1..][i - 1];
    }
  }

  /** A head row for `u` with no follow row of `u` after it is the last one. */
  lemma LastFeedRowAtHead(rows: FollowTable, authorId: Long, u: Long)
    requires rows != [] && rows[0].followUserId == authorId && rows[0].userId == u
    requires u !in FollowersOf(rows[1..], authorId)
    ensures LastFeedRow(rows, authorId, u, 0)
  {
    forall i | 0 < i < |rows|
      ensures !(rows[i].followUserId == authorId && rows[i].userId == u)
    {
      assert rows[i] == rows[1..][i - 1];
    }
  }

  /** A later score for the same blog hides whatever one pass wrote to `u`'s feed. */
  lemma PushOneOverwritten(z: ZSetStore, row: Follow, authorId: Long, blogId: Long, nowMillis: int, u: Long,
                           later: int)
    ensures Scores(PushOne(z, row, authorId, blogId, nowMillis), FeedKey(u))[blogId := later]
         == Scores(z, FeedKey(u))[blogId := later]
  {
    if row.followUserId == authorId && FeedKey(u) == FeedKey(row.userId) {
      assert Scores(PushOne(z, row, authorId, blogId, nowMillis), FeedKey(u))
          == Scores(z, FeedKey(u))[blogId := nowMillis];
    }
  }

  /** No key other than a follower's feed changes. */
  lemma {:induction false} PushToFeedsSparesOthers(z: ZSetStore, rows: FollowTable, authorId: Long, blogId: Long,
                                                   clock: seq<int>, k: string)
    requires |clock| == |rows|
    requires forall u :: u in FollowersOf(rows, authorId) ==> k != FeedKey(u)
    ensures var r := PushToFeeds(z, rows, authorId, blogId, clock);
            (k in r <==> k in z) && (k in z ==> r[k] == z[k])
    decreases |rows|
  {
    if rows != [] {
      FollowersOfSplit(rows, authorId);
      PushToFeedsSparesOthers(PushOne(z, rows[0], authorId, blogId, clock[0]), rows[1..], authorId, blogId,
                              clock[1..], k);
    }
  }

  /** Every follower's feed gains the blog, scored with the clock reading taken at
      the last follow row of that follower; nothing else in the feed changes. */
  lemma {:induction false} PushToFeedsReachesFollowers(z: ZSetStore, rows: FollowTable, authorId: Long, blogId: Long,
                                                       clock: seq<int>, u: Long)
    requires |clock| == |rows|
    requires u in FollowersOf(rows, authorId)
    ensures exists j :: LastFeedRow(rows, authorId, u, j) &&
                        Scores(PushToFeeds(z, rows, authorId, blogId, clock), FeedKey(u))
                        == Scores(z, FeedKey(u))[blogId := clock[j]]
    decreases |rows|
  {
    var tail := rows[1..];
    var z' := PushOne(z, rows[0], authorId, blogId, clock[0]);
    var head := rows[0].userId;
    var pushed := rows[0].followUserId == authorId;
    FollowersOfSplit(rows, authorId);
    if u in FollowersOf(tail, authorId) {
      PushToFeedsReachesFollowers(z', tail, authorId, blogId, clock[1..], u);
      var j' :| LastFeedRow(tail, authorId, u, j') &&
                Scores(PushToFeeds(z', tail, authorId, blogId, clock[1..]), FeedKey(u))
                == Scores(z', FeedKey(u))[blogId := clock[1..][j']];
      LastFeedRowShifts(rows, authorId, u, j');
      assert clock[1..][j'] == clock[j' + 1];
      PushOneOverwritten(z, rows[0], authorId, blogId, clock[0], u, clock[j' + 1]);
    } else {
      assert pushed && u == head;
      LastFeedRowAtHead(rows, authorId, u);
      forall v | v in FollowersOf(tail, authorId)
        ensures FeedKey(u) != FeedKey(v)
      {
        if FeedKey(u) == FeedKey(v) {
          IdKeyInjective(FEED_KEY, u, v);
        }
      }
      PushToFeedsSparesOthers(z', tail, authorId, blogId, clock[1..], FeedKey(u));
    }
  }

  /** saveBlog: the blog is stamped with the author and inserted; if the insert
      fails the reply is a failure and no feed is written. Otherwise the new id is
      returned and every follower of the author finds the blog in their feed,
      scored with the clock reading of the loop pass over that follower's last
      follow row, with no other key touched. `newId` is the id the insert assigns
      and `clock` the readings of the fan-out loop, one per follow row. */
  function SaveBlog(db: BlogTable, follows: FollowTable, z: ZSetStore, author: UserDTO, blog: Blog, saved: bool,
                    newId: Long, clock: seq<int>): (r: (Reply<Long>, BlogTable, ZSetStore))
    requires newId !in db
    requires |clock| == |follows|
    ensures !saved ==> r == (Fail(SAVE_FAILED), db, z)
    ensures saved ==>
              && r.0 == Ok(newId)
              && r.1 == db[newId := blog.(id := Some(newId), userId := Some(author.id))]
              && (forall u :: u in FollowersOf(follows, author.id) ==>
                    exists j :: LastFeedRow(follows, author.id, u, j) &&
                                Scores(r.2, FeedKey(u)) == Scores(z, FeedKey(u))[newId := clock[j]])
              && (forall k :: (forall u :: u in FollowersOf(follows, author.id) ==> k != FeedKey(u)) ==>
                    (k in r.2 <==> k in z) && (k in z ==> r.2[k] == z[k]))
  {
    if !saved then (Fail(SAVE_FAILED), db, z)
    else
      var stored := blog.(id := Some(newId), userId := Some(author.id));
      var r := PushToFeeds(z, follows, author.id, newId, clock);
      assert forall u :: u in FollowersOf(follows, author.id) ==>
                exists j :: LastFeedRow(follows, author.id, u, j) &&
                            Scores(r, FeedKey(u)) == Scores(z, FeedKey(u))[newId := clock[j]]
        by {
        forall u | u in FollowersOf(follows, author.id) {
          PushToFeedsReachesFollowers(z, follows, author.id, newId, clock, u);
        }
      }
      assert forall k :: (forall u :: u in FollowersOf(follows, author.id) ==> k != FeedKey(u)) ==>
                (k in r <==> k in z) && (k in z ==> r[k] == z[k]) by {
        forall k | forall u :: u in FollowersOf(follows, author.id) ==> k != FeedKey(u) {
          PushToFeedsSparesOthers(z, follows, author.id, newId, clock, k);
        }
      }
      (Ok(newId), db[newId := stored], r)
  }
}

=== FILE: cache_util.dfy ===
/** The cache-aside helpers every service reads through: a plain write with a TTL,
    a write with a logical expiry stored beside the value, a reader that guards the
    source against penetration by caching an empty-string marker for absent
    objects, and a reader for logically expiring entries that rebuilds an expired
    entry under a lock while callers keep getting the stale value.

    The loader (`function.apply(id)`) is an input: what it returns, or the exception
    it throws, for this id. The id enters keys as its decimal text. Time is in
    seconds; the rebuild runs to completion before the reader returns, because the
    reader waits on its future, so one call is one sequential step. */
module CacheUtil {
  import opened Wrappers
  import opened JavaStrings
  import opened KvStore
  import opened RedisConstants

  /** RedisData: a value together with the instant it logically expires. */
  datatype RedisData<T> = RedisData(expireTime: int, data: T)

  /** The JSON a cache key holds: a bean written by saveObject, or a RedisData
      written by saveObjectWithLogicExpire. */
  datatype Json<T> = Bean(bean: T) | Wrapped(redisData: RedisData<T>)

  type Cache<T> = Store<Json<T>>

  const LOCK_VALUE: string := "1"
  const LOCK_TTL: nat := 10                 // seconds
  const SAVED: string := "成功"
  const BAD_JSON: string := "JSONException"
  const NULL_POINTER: string := "NullPointerException"

  /** The JSON text of a value with an expiry is a RedisData. */
  predicate IsLogical<T>(e: Option<Data<Json<T>>>) {
    e.Some? && e.value.Obj? && e.value.v.Wrapped?
  }

  /** The JSON text of a bean written by saveObject. */
  predicate IsBean<T>(e: Option<Data<Json<T>>>) {
    e.Some? && e.value.Obj? && e.value.v.Bean?
  }

  /** `StrUtil.isBlank` of what GET returned: null, or a string of blanks. */
  predicate IsBlankRead<T>(e: Option<Data<Json<T>>>) {
    e.None? || (e.value.Text? && IsBlank(e.value.s))
  }

  /** saveObject: a null object is refused (logged, nothing written); otherwise the
      object is written with a physical TTL, which Redis rejects unless positive. */
  function SaveObject<T>(s: Cache<T>, key: string, obj: Option<T>, timeOut: nat, unit: TimeUnit, now: int)
    : (r: Outcome<Cache<T>>)
    ensures obj.None? ==> r == Returned(s)
    ensures obj.Some? && timeOut == 0 ==> r == Threw(INVALID_EXPIRE)
    ensures obj.Some? && timeOut > 0 ==>
              && r.Returned?
              && (forall t :: now <= t < now + ToSeconds(timeOut, unit) ==> Get(r.value, key, t) == Some(Obj(Bean(obj.value))))
              && Get(r.value, key, now + ToSeconds(timeOut, unit)).None?
    ensures r.Returned? ==> forall k, t :: k != key ==> Get(r.value, k, t) == Get(s, k, t)
  {
    if obj.None? then Returned(s)
    else if ToSeconds(timeOut, unit) == 0 then Threw(INVALID_EXPIRE)
    else Returned(Set(s, key, Obj(Bean(obj.value)), Some(ToSeconds(timeOut, unit)), now))
  }

  /** saveObjectWithLogicExpire: a null object is refused with ""; otherwise the
      object is wrapped with expiry `now + timeout` and written with no physical TTL,
      so it stays readable after its logical expiry. */
  function SaveObjectWithLogicExpire<T>(s: Cache<T>, key: string, obj: Option<T>, timeOut: nat, unit: TimeUnit,
                                        now: int): (r: (string, Cache<T>))
    ensures obj.None? ==> r == ("", s)
    ensures obj.Some? ==>
              && r.0 == SAVED
              && forall t :: Get(r.1, key, t) == Some(Obj(Wrapped(RedisData(now + ToSeconds(timeOut, unit), obj.value))))
    ensures forall k, t :: k != key ==> Get(r.1, k, t) == Get(s, k, t)
  {
    if obj.None? then ("", s)
    else (SAVED, Set(s, key, Obj(Wrapped(RedisData(now + ToSeconds(timeOut, unit), obj.value))), None, now))
  }

  /** getObject: read `keyPrefix + id`. A non-blank hit is decoded and returned; a
      blank string is the marker of an absent object and reads as null. Only a miss
      consults the loader: an absent object leaves the marker for CACHE_NULL_TTL
      minutes, a present one is cached through saveObject. */
  function GetObject<T>(s: Cache<T>, keyPrefix: string, id: string, loader: Outcome<Option<T>>,
                        timeOut: nat, unit: TimeUnit, now: int): (r: (Outcome<Option<T>>, Cache<T>))
    ensures Get(s, keyPrefix + id, now).Some? ==> r.1 == s
    ensures IsBean(Get(s, keyPrefix + id, now)) ==>
              r.0 == Returned(Some(Get(s, keyPrefix + id, now).value.v.bean))
    ensures IsBlankRead(Get(s, keyPrefix + id, now)) && Get(s, keyPrefix + id, now).Some? ==> r.0 == Returned(None)
    ensures var e := Get(s, keyPrefix + id, now);
            e.Some? && !IsBean(e) && !IsBlankRead(e) ==> r.0.Threw?
    ensures Get(s, keyPrefix + id, now).None? && loader.Threw? ==> r == (loader, s)
    ensures Get(s, keyPrefix + id, now).None? && loader == Returned(None) ==>
              && r.0 == Returned(None)
              && (forall t :: now <= t < now + CACHE_NULL_TTL * 60 ==> Get(r.1, keyPrefix + id, t) == Some(Text("")))
    ensures Get(s, keyPrefix + id, now).None? && loader.Returned? && loader.value.Some? && timeOut == 0 ==>
              r == (Threw(INVALID_EXPIRE), s)
    ensures Get(s, keyPrefix + id, now).None? && loader.Returned? && loader.value.Some? && timeOut > 0 ==>
              && r.0 == loader
              && (forall t :: now <= t < now + ToSeconds(timeOut, unit) ==>
                    Get(r.1, keyPrefix + id, t) == Some(Obj(Bean(loader.value.value))))
    ensures forall k, t :: k != keyPrefix + id ==> Get(r.1, k, t) == Get(s, k, t)
  {
    var key := keyPrefix + id;
    var read := Get(s, key, now);
    if read.Some? then
      if IsBean(read) then (Returned(Some(read.value.v.bean)), s)
      else if IsBlankRead(read) then (Returned(None), s)
      else (Threw(BAD_JSON), s)
    else
      match loader
      case Threw(cause) => (Threw(cause), s)
      case Returned(None) => (Returned(None), Set(s, key, Text(""), Some(ToSeconds(CACHE_NULL_TTL, Minutes)), now))
      case Returned(Some(t)) =>
        match SaveObject(s, key, Some(t), timeOut, unit, now)
        case Threw(cause) => (Threw(cause), s)
        case Returned(s') => (Returned(Some(t)), s')
  }

  /** The private tryLock: SET lockKey "1" NX EX 10. */
  function TryLock<T>(s: Cache<T>, lockKey: string, now: int): (r: (Cache<T>, bool))
    ensures r.1 <==> Get(s, lockKey, now).None?
    ensures r.1 ==> forall t :: now <= t < now + LOCK_TTL ==> Get(r.0, lockKey, t) == Some(Text(LOCK_VALUE))
    ensures !r.1 ==> r.0 == s
    ensures forall k, t :: k != lockKey ==> Get(r.0, k, t) == Get(s, k, t)
  {
    SetIfAbsent(s, lockKey, Text(LOCK_VALUE), LOCK_TTL, now)
  }

  /** The private unlock: DEL lockKey, whoever holds the lock. */
  function Unlock<T>(s: Cache<T>, lockKey: string): (r: Cache<T>)
    ensures forall t :: Get(r, lockKey, t).None?
    ensures forall k, t :: k != lockKey ==> Get(r, k, t) == Get(s, k, t)
  {
    Delete(s, lockKey)
  }

  /** The lock that guards the rebuild of the entry for `id`. It is a shop lock
      whatever the key prefix of the entry. */
  function RebuildLockKey(id: string): string {
    LOCK_SHOP_KEY + id
  }

  /** queryWithLogicExpire. `s` is the store at the first read, `resume` the store
      when the lock is attempted; they differ only if other clients wrote in
      between. A blank read yields null and an unexpired entry its value, neither
      taking the lock nor consulting the loader. An expired entry is returned stale
      unless the lock is won and the re-read finds a fresh value; after a stale
      re-read the loader's value is written with a new logical expiry and the lock
      is deleted, but the caller still gets the stale value. */
  function QueryWithLogicExpire<T>(s: Cache<T>, resume: Cache<T>, keyPrefix: string, id: string,
                                   loader: Outcome<Option<T>>, timeOut: nat, unit: TimeUnit, now: int)
    : (r: (Outcome<Option<T>>, Cache<T>))
    ensures IsBlankRead(Get(s, keyPrefix + id, now)) ==> r == (Returned(None), s)
    ensures var first := Get(s, keyPrefix + id, now);
            !IsBlankRead(first) && !IsLogical(first) ==> r.0.Threw? && r.1 == s
    ensures var first := Get(s, keyPrefix + id, now);
            IsLogical(first) && now < first.value.v.redisData.expireTime ==>
              r == (Returned(Some(first.value.v.redisData.data)), s)
    ensures var first := Get(s, keyPrefix + id, now);
            IsLogical(first) && now >= first.value.v.redisData.expireTime &&
            Get(resume, RebuildLockKey(id), now).Some? ==>
              r == (Returned(Some(first.value.v.redisData.data)), resume)
    ensures var first := Get(s, keyPrefix + id, now);
            var again := Get(TryLock(resume, RebuildLockKey(id), now).0, keyPrefix + id, now);
            IsLogical(first) && now >= first.value.v.redisData.expireTime &&
            Get(resume, RebuildLockKey(id), now).None? && IsLogical(again) &&
            now < again.value.v.redisData.expireTime ==>
              && r.0 == Returned(Some(again.value.v.redisData.data))
              && Get(r.1, RebuildLockKey(id), now) == Some(Text(LOCK_VALUE))
              && r.1 == TryLock(resume, RebuildLockKey(id), now).0
    ensures var first := Get(s, keyPrefix + id, now);
            var again := Get(TryLock(resume, RebuildLockKey(id), now).0, keyPrefix + id, now);
            IsLogical(first) && now >= first.value.v.redisData.expireTime &&
            Get(resume, RebuildLockKey(id), now).None? && !IsLogical(again) ==>
              && r.0.Threw?
              && (forall t :: now <= t < now + LOCK_TTL ==> Get(r.1, RebuildLockKey(id), t) == Some(Text(LOCK_VALUE)))
              && r.1 == TryLock(resume, RebuildLockKey(id), now).0
    ensures var first := Get(s, keyPrefix + id, now);
            var again := Get(TryLock(resume, RebuildLockKey(id), now).0, keyPrefix + id, now);
            IsLogical(first) && now >= first.value.v.redisData.expireTime &&
            Get(resume, RebuildLockKey(id), now).None? && IsLogical(again) &&
            now >= again.value.v.redisData.expireTime ==>
              && (loader.Returned? ==> r.0 == Returned(Some(first.value.v.redisData.data)))
              && (loader.Threw? ==> r.0 == loader)
              && (forall t :: Get(r.1, RebuildLockKey(id), t).None?)
              && (keyPrefix + id != RebuildLockKey(id) && loader.Returned? && loader.value.Some? ==>
                    forall t :: Get(r.1, keyPrefix + id, t)
                                == Some(Obj(Wrapped(RedisData(now + ToSeconds(timeOut, unit), loader.value.value)))))
              && (keyPrefix + id != RebuildLockKey(id) && !(loader.Returned? && loader.value.Some?) ==>
                    forall t :: Get(r.1, keyPrefix + id, t) == Get(resume, keyPrefix + id, t))
    ensures var first := Get(s, keyPrefix + id, now);
            IsLogical(first) && now >= first.value.v.redisData.expireTime &&
            Get(resume, RebuildLockKey(id), now).None? ==>
              forall k, t :: k != keyPrefix + id && k != RebuildLockKey(id) ==> Get(r.1, k, t) == Get(resume, k, t)
  {
    var key := keyPrefix + id;
    var first := Get(s, key, now);
    if IsBlankRead(first) then (Returned(None), s)
    else if !IsLogical(first) then (Threw(NULL_POINTER), s)
    else
      var stale := first.value.v.redisData;
      if now < stale.expireTime then (Returned(Some(stale.data)), s)
      else
        var lockKey := RebuildLockKey(id);
        var (locked, acquired) := TryLock(resume, lockKey, now);
        if !acquired then (Returned(Some(stale.data)), resume)
        else
          var again := Get(locked, key, now);
          if !IsLogical(again) then (Threw(NULL_POINTER), locked)
          else if now < again.value.v.redisData.expireTime then (Returned(Some(again.value.v.redisData.data)), locked)
          else match loader
            case Threw(cause) => (Threw(cause), Unlock(locked, lockKey))
            case Returned(obj) =>
              var (_, saved) := SaveObjectWithLogicExpire(locked, key, obj, timeOut, unit, now);
              (Returned(Some(stale.data)), Unlock(saved, lockKey))
  }

  /** A cached string of Unicode spaces, such as a lone em space, is the absent
      marker too: getObject answers null without consulting the loader. */
  lemma SpaceMarkerReadsNull<T>(s: Cache<T>, keyPrefix: string, id: string, loader: Outcome<Option<T>>,
                                timeOut: nat, unit: TimeUnit, now: int)
    requires Get(s, keyPrefix + id, now) == Some(Text("\U{2003}"))
    ensures GetObject(s, keyPrefix, id, loader, timeOut, unit, now) == (Returned(None), s)
  {
    assert IsBlankChar("\U{2003}"[0]);
  }

  /** A live entry answers getObject on its own: the loader is not consulted. */
  lemma HitIgnoresLoader<T>(s: Cache<T>, keyPrefix: string, id: string, loader1: Outcome<Option<T>>,
                            loader2: Outcome<Option<T>>, timeOut: nat, unit: TimeUnit, now: int)
    requires Get(s, keyPrefix + id, now).Some?
    ensures GetObject(s, keyPrefix, id, loader1, timeOut, unit, now).1 == s
    ensures GetObject(s, keyPrefix, id, loader1, timeOut, unit, now) == GetObject(s, keyPrefix, id, loader2, timeOut, unit, now)
  {
  }

  /** Penetration guard: once the loader has reported the object absent, reads
      within CACHE_NULL_TTL minutes return null from the marker, whatever the loader
      would say by then. */
  lemma NullMarkerShieldsLoader<T>(s: Cache<T>, keyPrefix: string, id: string, later: Outcome<Option<T>>,
                                   timeOut: nat, unit: TimeUnit, now: int, t: int)
    requires Get(s, keyPrefix + id, now).None?
    requires now <= t < now + CACHE_NULL_TTL * 60
    ensures var s' := GetObject(s, keyPrefix, id, Returned(None), timeOut, unit, now).1;
            GetObject(s', keyPrefix, id, later, timeOut, unit, t) == (Returned(None), s')
  {
    var s' := GetObject(s, keyPrefix, id, Returned(None), timeOut, unit, now).1;
    assert Get(s', keyPrefix + id, t) == Some(Text(""));
    assert IsBlank("");
  }

  /** Once the loader's object is cached, reads within its TTL return it without
      consulting the loader again. */
  lemma CachedObjectShieldsLoader<T>(s: Cache<T>, keyPrefix: string, id: string, v: T, later: Outcome<Option<T>>,
                                     timeOut: nat, unit: TimeUnit, now: int, t: int)
    requires Get(s, keyPrefix + id, now).None?
    requires timeOut > 0
    requires now <= t < now + ToSeconds(timeOut, unit)
    ensures var (first, s') := GetObject(s, keyPrefix, id, Returned(Some(v)), timeOut, unit, now);
            first == Returned(Some(v)) && GetObject(s', keyPrefix, id, later, timeOut, unit, t) == (Returned(Some(v)), s')
  {
    var s' := GetObject(s, keyPrefix, id, Returned(Some(v)), timeOut, unit, now).1;
    assert Get(s', keyPrefix + id, t) == Some(Obj(Bean(v)));
  }

  /** An unexpired logical entry answers queryWithLogicExpire on its own: neither
      the loader nor what other clients do before the lock matters. */
  lemma FreshEntryIgnoresLoader<T>(s: Cache<T>, resume1: Cache<T>, resume2: Cache<T>, keyPrefix: string, id: string,
                                   loader1: Outcome<Option<T>>, loader2: Outcome<Option<T>>,
                                   timeOut: nat, unit: TimeUnit, now: int)
    requires IsLogical(Get(s, keyPrefix + id, now))
    requires now < Get(s, keyPrefix + id, now).value.v.redisData.expireTime
    ensures QueryWithLogicExpire(s, resume1, keyPrefix, id, loader1, timeOut, unit, now)
         == QueryWithLogicExpire(s, resume2, keyPrefix, id, loader2, timeOut, unit, now)
  {
  }

  /** With no other client between the first read and the lock, an expired entry
      whose lock is free is always rebuilt: the caller gets the stale value, the
      key holds the loader's object with a new logical expiry, the lock is
      released, and no other key changes. The entry key must differ from the lock
      key, which holds as long as the key prefix is not the shop-lock prefix. */
  lemma UndisturbedRebuild<T>(s: Cache<T>, keyPrefix: string, id: string, v: T, timeOut: nat, unit: TimeUnit, now: int)
    requires keyPrefix != LOCK_SHOP_KEY
    requires IsLogical(Get(s, keyPrefix + id, now))
    requires now >= Get(s, keyPrefix + id, now).value.v.redisData.expireTime
    requires Get(s, RebuildLockKey(id), now).None?
    ensures var r := QueryWithLogicExpire(s, s, keyPrefix, id, Returned(Some(v)), timeOut, unit, now);
            && r.0 == Returned(Some(Get(s, keyPrefix + id, now).value.v.redisData.data))
            && (forall t :: Get(r.1, keyPrefix + id, t) == Some(Obj(Wrapped(RedisData(now + ToSeconds(timeOut, unit), v)))))
            && (forall t :: Get(r.1, RebuildLockKey(id), t).None?)
            && (forall k, t :: k != keyPrefix + id && k != RebuildLockKey(id) ==> Get(r.1, k, t) == Get(s, k, t))
  {
    var key := keyPrefix + id;
    var lockKey := RebuildLockKey(id);
    if key == lockKey {
      SuffixCancel(keyPrefix, LOCK_SHOP_KEY, id);
      assert false;
    }
    var locked := TryLock(s, lockKey, now).0;
    assert Get(locked, key, now) == Get(s, key, now);
    var saved := SaveObjectWithLogicExpire(locked, key, Some(v), timeOut, unit, now).1;
    assert QueryWithLogicExpire(s, s, keyPrefix, id, Returned(Some(v)), timeOut, unit, now).1 == Unlock(saved, lockKey);
  }

  /** After an undisturbed rebuild with a positive timeout, every read before the
      new logical expiry gets the rebuilt object and changes nothing. */
  lemma RebuildThenFresh<T>(s: Cache<T>, keyPrefix: string, id: string, v: T, timeOut: nat, unit: TimeUnit, now: int,
                            resume: Cache<T>, later: Outcome<Option<T>>, t: int)
    requires keyPrefix != LOCK_SHOP_KEY
    requires IsLogical(Get(s, keyPrefix + id, now))
    requires now >= Get(s, keyPrefix + id, now).value.v.redisData.expireTime
    requires Get(s, RebuildLockKey(id), now).None?
    requires timeOut > 0 && t < now + ToSeconds(timeOut, unit)
    ensures var s' := QueryWithLogicExpire(s, s, keyPrefix, id, Returned(Some(v)), timeOut, unit, now).1;
            QueryWithLogicExpire(s', resume, keyPrefix, id, later, timeOut, unit, t) == (Returned(Some(v)), s')
  {
    UndisturbedRebuild(s, keyPrefix, id, v, timeOut, unit, now);
  }
}

=== FILE: distributed_lock.dfy ===
/** `RedisDistributedLock`: a non-blocking lock whose Redis key is `"lock:" + name`
    and whose value is an owner token `idPrefix + threadId`, where `idPrefix` is a
    random UUID fixed once per JVM. `tryLock` is SET NX EX; `unlock` runs the
    script unLock.lua, which is not part of this model: its behaviour is the
    compare-and-delete assumed in `UnlockScript`. */
module RedisDistributedLock {
  import opened Wrappers
  import opened JavaLong
  import opened JavaStrings
  import opened KvStore

  const KEY_PREFIX: string := "lock:"

  /** A lock object: its name, and the JVM-wide owner prefix. */
  datatype Lock = Lock(name: string, idPrefix: string)

  predicate IsHexDigit(c: char) {
    '0' <= c <= '9' || 'a' <= c <= 'f'
  }

  /** `UUID.randomUUID().toString(true) + "-"`: 32 lower-case hex digits and a dash. */
  predicate IsIdPrefix(p: string) {
    |p| == 33 && p[32] == '-' && forall i :: 0 <= i < 32 ==> IsHexDigit(p[i])
  }

  function LockKey(name: string): string {
    KEY_PREFIX + name
  }

  /** The owner token of a thread: `idPrefix + Thread.currentThread().getId()`. */
  function Token(idPrefix: string, threadId: Long): string {
    idPrefix + LongToString(threadId)
  }

  /** The lock's key holds this thread's token at time `now`. */
  predicate Holds<V>(s: Store<V>, lock: Lock, threadId: Long, now: int) {
    Get(s, LockKey(lock.name), now) == Some(Text(Token(lock.idPrefix, threadId)))
  }

  /** `tryLock(timeoutSeconds)`: SET NX of the caller's token with the given expiry.
      A timeout that is not positive makes Redis refuse the command with an error,
      which reaches the caller as an exception; nothing is written. */
  function TryLock<V>(s: Store<V>, lock: Lock, threadId: Long, timeoutSeconds: Long, now: int)
    : (r: Outcome<(Store<V>, bool)>)
    ensures r.Returned? <==> timeoutSeconds > 0
    ensures r.Returned? ==> (r.value.1 <==> Get(s, LockKey(lock.name), now).None?)
    ensures r.Returned? && r.value.1 ==>
              forall t :: now <= t < now + timeoutSeconds ==> Holds(r.value.0, lock, threadId, t)
    ensures r.Returned? && !r.value.1 ==> r.value.0 == s
    ensures r.Returned? ==> forall k :: k != LockKey(lock.name) && k in s ==> k in r.value.0 && r.value.0[k] == s[k]
  {
    if timeoutSeconds <= 0 then Threw(INVALID_EXPIRE)
    else Returned(SetIfAbsent(s, LockKey(lock.name), Text(Token(lock.idPrefix, threadId)), timeoutSeconds, now))
  }

  /** The lock was taken: `tryLock` returned true. */
  predicate Acquired<V>(r: Outcome<(Store<V>, bool)>) {
    r.Returned? && r.value.1
  }

  /** Assumed semantics of unLock.lua: delete the key only if it holds `token`,
      atomically. */
  function UnlockScript<V>(s: Store<V>, key: string, token: string, now: int): (r: Store<V>)
    ensures Get(s, key, now) == Some(Text(token)) ==> Get(r, key, now).None?
    ensures Get(s, key, now) != Some(Text(token)) ==> r == s
    ensures forall k, t :: k != key ==> Get(r, k, t) == Get(s, k, t)
  {
    if Get(s, key, now) == Some(Text(token)) then Delete(s, key) else s
  }

  /** `unlock()`: the script on the same key with the same token `tryLock` wrote. */
  function Unlock<V>(s: Store<V>, lock: Lock, threadId: Long, now: int): (r: Store<V>)
    ensures Holds(s, lock, threadId, now) ==> Get(r, LockKey(lock.name), now).None?
    ensures !Holds(s, lock, threadId, now) ==> r == s
  {
    UnlockScript(s, LockKey(lock.name), Token(lock.idPrefix, threadId), now)
  }

  /** While the first holder's token is live, a second `tryLock` on the same name,
      by any thread of any JVM, fails and changes nothing. */
  lemma MutualExclusion<V>(s: Store<V>, l1: Lock, t1: Long, ttl: Long, now: int, l2: Lock, t2: Long, ttl2: Long, now2: int)
    requires l1.name == l2.name
    requires Acquired(TryLock(s, l1, t1, ttl, now))
    requires now <= now2 < now + ttl
    ensures var s1 := TryLock(s, l1, t1, ttl, now).value.0;
            var second := TryLock(s1, l2, t2, ttl2, now2);
            !Acquired(second) && (second.Returned? ==> second.value.0 == s1)
  {
    var s1 := TryLock(s, l1, t1, ttl, now).value.0;
    assert Holds(s1, l1, t1, now2);
  }

  /** Owner tokens are unique: two tokens built from well-formed prefixes agree
      exactly when both the prefix and the thread id agree. */
  lemma TokenInjective(p1: string, t1: Long, p2: string, t2: Long)
    requires IsIdPrefix(p1) && IsIdPrefix(p2)
    ensures Token(p1, t1) == Token(p2, t2) <==> p1 == p2 && t1 == t2
  {
    if Token(p1, t1) == Token(p2, t2) {
      SplitCancel(p1, LongToString(t1), p2, LongToString(t2));
      LongToStringInjective(t1, t2);
    }
  }

  /** A thread that does not hold the lock cannot release it: its `unlock` leaves
      the holder's token in place. */
  lemma UnlockByOtherIsNoOp<V>(s: Store<V>, lock: Lock, holder: Long, other: Long, now: int)
    requires IsIdPrefix(lock.idPrefix)
    requires Holds(s, lock, holder, now)
    requires other != holder
    ensures Unlock(s, lock, other, now) == s
    ensures Holds(Unlock(s, lock, other, now), lock, holder, now)
  {
    TokenInjective(lock.idPrefix, holder, lock.idPrefix, other);
  }

  /** Acquire, release by the owner, and the lock is free again for anyone. */
  lemma ReleaseThenReacquire<V>(s: Store<V>, lock: Lock, t1: Long, ttl: Long, now: int, later: int, l2: Lock, t2: Long)
    requires l2.name == lock.name
    requires Acquired(TryLock(s, lock, t1, ttl, now))
    requires now <= later < now + ttl
    ensures var s1 := Unlock(TryLock(s, lock, t1, ttl, now).value.0, lock, t1, later);
            Acquired(TryLock(s1, l2, t2, ttl, later))
  {
  }

  /** Lock names map to distinct keys, so locks of different names never contend. */
  lemma LockKeyInjective(n1: string, n2: string)
    ensures LockKey(n1) == LockKey(n2) <==> n1 == n2
  {
    if LockKey(n1) == LockKey(n2) {
      PrefixCancel(KEY_PREFIX, n1, n2);
    }
  }
}

=== FILE: follow_service.dfy ===
/** Following: rows of the follow table, mirrored into one Redis set per user so
    that common follows are a set intersection. */
module FollowService {
  import opened Wrappers
  import opened JavaLong
  import opened JavaStrings
  import opened RedisConstants
  import opened UserService

  /** A row: `userId` follows `followUserId`. */
  datatype Follow = Follow(userId: Long, followUserId: Long)

  /** The follow table, row by row; nothing stops a pair from appearing twice. */
  type FollowTable = seq<Follow>

  /** Redis sets by key; members are user ids (their decimal text in Redis). An
      absent key reads as the empty set, as SMEMBERS does. */
  type SetStore = map<string, set<Long>>

  function Members(z: SetStore, key: string): set<Long> {
    if key in z then z[key] else {}
  }

  function FollowKey(userId: Long): string {
    FOLLOW_KEY + LongToString(userId)
  }

  /** How many rows match the pair (the `count()` of followOrNot). */
  function CountRows(db: FollowTable, f: Follow): (r: nat)
    ensures r > 0 <==> f in db
    ensures r <= |db|
  {
    if db == [] then 0
    else (if db[0] == f then 1 else 0) + CountRows(db[1..], f)
  }

  /** The table without any row for the pair (DELETE ... WHERE both columns match). */
  function RemoveRows(db: FollowTable, f: Follow): (r: FollowTable)
    ensures f !in r
    ensures forall g :: g != f ==> (g in r <==> g in db)
    ensures |r| == |db| - CountRows(db, f)
  {
    if db == [] then []
    else if db[0] == f then RemoveRows(db[1..], f)
    else [db[0]] + RemoveRows(db[1..], f)
  }

  /** followOrNot: whether the current user follows `id`. */
  function FollowOrNot(db: FollowTable, me: Long, id: Long): (r: Reply<bool>)
    ensures r == Ok(Follow(me, id) in db)
  {
    Ok(CountRows(db, Follow(me, id)) > 0)
  }

  /** isFollow: following saves a row and, only if the save succeeded, adds `id` to
      the user's Redis set; unfollowing deletes the matching rows and, only if some
      row was deleted, removes `id` from the set. `saved` is whether the insert
      reported success. */
  function IsFollow(db: FollowTable, z: SetStore, me: Long, id: Long, isFollow: bool, saved: bool)
    : (r: (Reply<Unit>, FollowTable, SetStore))
    ensures r.0 == Ok(Unit)
    ensures isFollow && saved ==> r.1 == db + [Follow(me, id)] && Members(r.2, FollowKey(me)) == Members(z, FollowKey(me)) + {id}
    ensures isFollow && !saved ==> r.1 == db && r.2 == z
    ensures !isFollow ==> Follow(me, id) !in r.1 && (forall g :: g != Follow(me, id) ==> (g in r.1 <==> g in db))
    ensures !isFollow && Follow(me, id) in db ==> Members(r.2, FollowKey(me)) == Members(z, FollowKey(me)) - {id}
    ensures !isFollow && Follow(me, id) !in db ==> r.2 == z
    ensures forall k :: k != FollowKey(me) ==> Members(r.2, k) == Members(z, k)
  {
    var key := FollowKey(me);
    if isFollow then
      if saved then (Ok(Unit), db + [Follow(me, id)], z[key := Members(z, key) + {id}])
      else (Ok(Unit), db, z)
    else
      var removed := CountRows(db, Follow(me, id)) > 0;
      var db' := RemoveRows(db, Follow(me, id));
      if removed then (Ok(Unit), db', z[key := Members(z, key) - {id}]) else (Ok(Unit), db', z)
  }

  /** common: the users both `me` and `id` follow, as their public fields; an empty
      intersection gives an empty list. Users missing from the table are skipped,
      as listByIds skips them. */
  function Common(z: SetStore, users: UserTable, me: Long, id: Long): (r: Reply<set<UserDTO>>)
    ensures r.Ok?
    ensures forall d :: d in r.data ==>
              (exists u :: u in users && d == ToDto(users[u]) && u in Members(z, FollowKey(me)) && u in Members(z, FollowKey(id)))
    ensures forall u :: u in users && u in Members(z, FollowKey(me)) && u in Members(z, FollowKey(id)) ==>
              ToDto(users[u]) in r.data
    ensures Members(z, FollowKey(me)) * Members(z, FollowKey(id)) == {} ==> r.data == {}
  {
    var ids := Members(z, FollowKey(me)) * Members(z, FollowKey(id));
    if ids == {} then
      assert forall u :: u in Members(z, FollowKey(me)) && u in Members(z, FollowKey(id)) ==> u in ids;
      Ok({})
    else Ok(set u | u in ids && u in users :: ToDto(users[u]))
  }

  /** Common follows do not depend on who asks. */
  lemma CommonSymmetric(z: SetStore, users: UserTable, a: Long, b: Long)
    ensures Common(z, users, a, b) == Common(z, users, b, a)
  {
    assert Members(z, FollowKey(a)) * Members(z, FollowKey(b)) == Members(z, FollowKey(b)) * Members(z, FollowKey(a));
  }

  /** Following and then unfollowing, with both writes succeeding, leaves no row for
      the pair and the pair out of the Redis set, whatever held before. */
  lemma FollowThenUnfollow(db: FollowTable, z: SetStore, me: Long, id: Long)
    ensures var (_, db1, z1) := IsFollow(db, z, me, id, true, true);
            var (_, db2, z2) := IsFollow(db1, z1, me, id, false, true);
            && FollowOrNot(db2, me, id) == Ok(false)
            && id !in Members(z2, FollowKey(me))
            && (forall g :: g != Follow(me, id) ==> (g in db2 <==> g in db))
  {
    var (_, db1, z1) := IsFollow(db, z, me, id, true, true);
    assert Follow(me, id) in db1;
  }

  /** A successful follow is seen by followOrNot. */
  lemma FollowIsSeen(db: FollowTable, z: SetStore, me: Long, id: Long)
    ensures var (_, db1, z1) := IsFollow(db, z, me, id, true, true);
            FollowOrNot(db1, me, id) == Ok(true) && id in Members(z1, FollowKey(me))
  {
    var (_, db1, z1) := IsFollow(db, z, me, id, true, true);
    assert db1[|db|] == Follow(me, id);
  }
}

=== FILE: id_generator.dfy ===
/** `RedisIDGenerator.nextId`: a 64-bit order id whose high half is the number of
    seconds since 2024-01-01T00:00:00Z and whose low 32 bits are a per-prefix,
    per-day counter kept in Redis. The clock reading and its `yyyy:MM:dd`
    rendering are parameters. */
module RedisIdGenerator {
  import opened Wrappers
  import opened JavaLong
  import opened JavaStrings
  import opened KvStore

  /** 2024-01-01T00:00:00Z in epoch seconds. */
  const BEGIN_TIMESTAMP: int := 1704067200
  const COUNT_BITS: nat := 32
  const COUNTER_KEY_PREFIX: string := "icr:"

  /** `nowEpochSecond - BEGIN_TIMESTAMP`, as the `long` subtraction computes it. */
  function TimeStamp(nowEpochSecond: Long): Long {
    Wrap(nowEpochSecond - BEGIN_TIMESTAMP)
  }

  /** The Redis key of the counter for ids of `prefix` issued on the day `date`. */
  function CounterKey(prefix: string, date: string): string {
    COUNTER_KEY_PREFIX + prefix + date
  }

  /** `timeStamp << COUNT_BITS | counter`, with COUNT_BITS = 32. */
  function Pack(timeStamp: Long, counter: Long): Long {
    Or(ShiftLeft32(timeStamp), counter)
  }

  /** The reading of an id the layout implies: `(id >> 32, id & 0xFFFFFFFFL)`. */
  function Unpack(id: Long): (Long, int) {
    (ShiftRight32(id), Low32(id))
  }

  /** Time stamps whose shifted value still fits a `long`. */
  predicate TimeStampFits(timeStamp: int) {
    -0x8000_0000 <= timeStamp < 0x8000_0000
  }

  predicate CounterFits(counter: int) {
    0 <= counter < TWO_32
  }

  /** `nextId(prefix)`: increment the day's counter, then pack it with the time stamp.
      A Redis error on INCR propagates as an exception and no id is produced. */
  function NextId<V>(s: Store<V>, prefix: string, nowEpochSecond: Long, date: string): (r: Outcome<(Store<V>, Long)>)
    ensures r.Returned? <==> Incr(s, CounterKey(prefix, date), nowEpochSecond).Returned?
    ensures r.Returned? ==> r.value.0 == Incr(s, CounterKey(prefix, date), nowEpochSecond).value.0
    ensures r.Returned? ==>
      var counter := Incr(s, CounterKey(prefix, date), nowEpochSecond).value.1;
      && Get(r.value.0, CounterKey(prefix, date), nowEpochSecond) == Some(Counter(counter))
      && (TimeStampFits(TimeStamp(nowEpochSecond)) && CounterFits(counter) ==>
            r.value.1 == TimeStamp(nowEpochSecond) * TWO_32 + counter)
    ensures r.Returned? ==> forall k :: k != CounterKey(prefix, date) && k in s ==> k in r.value.0 && r.value.0[k] == s[k]
  {
    var timeStamp := TimeStamp(nowEpochSecond);
    match Incr(s, CounterKey(prefix, date), nowEpochSecond)
    case Threw(e) => Threw(e)
    case Returned((s', counter)) =>
      assert TimeStampFits(timeStamp) && CounterFits(counter) ==>
        Pack(timeStamp, counter) == timeStamp * TWO_32 + counter by {
        if TimeStampFits(timeStamp) && CounterFits(counter) {
          PackIsArithmetic(timeStamp, counter);
        }
      }
      Returned((s', Pack(timeStamp, counter)))
  }

  /** The unsigned 32-bit pattern of a time stamp that fits in 32 signed bits. */
  function Unsigned32(timeStamp: int): nat
    requires TimeStampFits(timeStamp)
  {
    if timeStamp >= 0 then timeStamp else timeStamp + TWO_32
  }

  /** Shifting a fitting time stamp is exact, and its 64-bit pattern is the
      unsigned 32-bit pattern moved to the high half. */
  lemma ShiftedPattern(timeStamp: Long)
    requires TimeStampFits(timeStamp)
    ensures ShiftLeft32(timeStamp) == timeStamp * TWO_32
    ensures Bits(timeStamp * TWO_32) == Unsigned32(timeStamp) * TWO_32
  {
    var u := Unsigned32(timeStamp);
    if timeStamp < 0 {
      assert timeStamp * TWO_32 + TWO_64 == u * TWO_32;
    }
  }

  /** The OR of the two patterns, read back as a signed value, is the sum. */
  lemma SignedPattern(timeStamp: Long, counter: Long)
    requires TimeStampFits(timeStamp) && CounterFits(counter)
    ensures Unsigned32(timeStamp) * TWO_32 + counter < TWO_64
    ensures FromBits(Unsigned32(timeStamp) * TWO_32 + counter) == timeStamp * TWO_32 + counter
  {
    var u := Unsigned32(timeStamp);
    var pattern := u * TWO_32 + counter;
    if timeStamp >= 0 {
      assert pattern < TWO_63;
    } else {
      assert pattern == (timeStamp * TWO_32 + counter) + TWO_64;
    }
  }

  /** With a counter below 2^32 the OR never meets a set bit of the shifted time
      stamp, so packing is plain arithmetic. */
  lemma PackIsArithmetic(timeStamp: Long, counter: Long)
    requires TimeStampFits(timeStamp) && CounterFits(counter)
    ensures Pack(timeStamp, counter) == timeStamp * TWO_32 + counter
  {
    ShiftedPattern(timeStamp);
    SignedPattern(timeStamp, counter);
    assert Bits(counter) == counter;
    OrHighLow(Unsigned32(timeStamp), counter);
  }

  /** The id is the arithmetic `timeStamp * 2^32 + counter` exactly when the time
      stamp fits in 32 signed bits; it is moreover non-negative exactly when the
      time stamp lies in [0, 2^31), i.e. for about 68 years after 2024. */
  lemma PackExactIff(timeStamp: Long, counter: Long)
    requires CounterFits(counter)
    ensures Pack(timeStamp, counter) == timeStamp * TWO_32 + counter <==> TimeStampFits(timeStamp)
    ensures (Pack(timeStamp, counter) >= 0 && Pack(timeStamp, counter) == timeStamp * TWO_32 + counter)
            <==> 0 <= timeStamp < 0x8000_0000
  {
    if TimeStampFits(timeStamp) {
      PackIsArithmetic(timeStamp, counter);
    } else {
      var id: int := Pack(timeStamp, counter);
      assert -TWO_63 <= id < TWO_63;
      if timeStamp >= 0x8000_0000 {
        assert timeStamp * TWO_32 >= TWO_63;
      } else {
        assert timeStamp * TWO_32 <= -TWO_63 - TWO_32;
      }
    }
  }

  /** Decoding recovers the time stamp and the counter. */
  lemma UnpackPack(timeStamp: Long, counter: Long)
    requires TimeStampFits(timeStamp) && CounterFits(counter)
    ensures Unpack(Pack(timeStamp, counter)) == (timeStamp, counter)
  {
    var id := Pack(timeStamp, counter);
    PackIsArithmetic(timeStamp, counter);
    DivModUnique(id, timeStamp, counter);
    assert ShiftRight32(id) == timeStamp;
    assert Low32(id) == counter;
  }

  /** Euclidean division by 2^32 is determined by quotient and remainder. */
  lemma DivModUnique(x: int, q: int, r: int)
    requires x == q * TWO_32 + r && 0 <= r < TWO_32
    ensures x / TWO_32 == q && x % TWO_32 == r
  {
    var q' := x / TWO_32;
    var r' := x % TWO_32;
    assert x == q' * TWO_32 + r' && 0 <= r' < TWO_32;
    assert (q - q') * TWO_32 == r' - r;
  }

  /** Distinct (time stamp, counter) pairs give distinct ids. */
  lemma PackInjective(t1: Long, c1: Long, t2: Long, c2: Long)
    requires TimeStampFits(t1) && CounterFits(c1)
    requires TimeStampFits(t2) && CounterFits(c2)
    requires Pack(t1, c1) == Pack(t2, c2)
    ensures t1 == t2 && c1 == c2
  {
    UnpackPack(t1, c1);
    UnpackPack(t2, c2);
  }

  /** Ids order by time stamp first and counter second. */
  lemma PackOrdered(t1: Long, c1: Long, t2: Long, c2: Long)
    requires TimeStampFits(t1) && CounterFits(c1)
    requires TimeStampFits(t2) && CounterFits(c2)
    ensures Pack(t1, c1) < Pack(t2, c2) <==> t1 < t2 || (t1 == t2 && c1 < c2)
  {
    PackIsArithmetic(t1, c1);
    PackIsArithmetic(t2, c2);
    if t1 < t2 {
      assert t1 * TWO_32 + TWO_32 <= t2 * TWO_32;
    } else if t2 < t1 {
      assert t2 * TWO_32 + TWO_32 <= t1 * TWO_32;
    }
  }

  /** Away from the bottom of the `long` range the subtraction is exact, and the
      time stamp is non-negative exactly from 2024-01-01 on. */
  lemma TimeStampSign(nowEpochSecond: Long)
    requires nowEpochSecond >= -TWO_63 + BEGIN_TIMESTAMP
    ensures TimeStamp(nowEpochSecond) == nowEpochSecond - BEGIN_TIMESTAMP
    ensures TimeStamp(nowEpochSecond) >= 0 <==> nowEpochSecond >= BEGIN_TIMESTAMP
  {
  }

  /** With a fixed-width date rendering (`yyyy:MM:dd` is ten characters), two counter
      keys coincide exactly when both the prefix and the day coincide. */
  lemma CounterKeyInjective(p1: string, d1: string, p2: string, d2: string)
    requires |d1| == |d2|
    ensures CounterKey(p1, d1) == CounterKey(p2, d2) <==> p1 == p2 && d1 == d2
  {
    if CounterKey(p1, d1) == CounterKey(p2, d2) {
      assert CounterKey(p1, d1) == COUNTER_KEY_PREFIX + (p1 + d1);
      assert CounterKey(p2, d2) == COUNTER_KEY_PREFIX + (p2 + d2);
      PrefixCancel(COUNTER_KEY_PREFIX, p1 + d1, p2 + d2);
      assert |p1| == |p2|;
      SplitCancel(p1, d1, p2, d2);
    }
  }

  /** Two successive calls for the same prefix on the same day, with a clock that
      does not go back, give strictly increasing ids (while the counter stays below
      2^32 and the time stamps are in the non-negative range). */
  lemma NextIdIncreasing<V>(s: Store<V>, prefix: string, date: string, now1: Long, now2: Long)
    requires now1 <= now2
    requires 0 <= TimeStamp(now1) < 0x8000_0000 && 0 <= TimeStamp(now2) < 0x8000_0000
    requires Get(s, CounterKey(prefix, date), now1).None?
          || (IncrementableAt(s, CounterKey(prefix, date), now1)
              && 0 <= s[CounterKey(prefix, date)].data.n < TWO_32 - 2
              && s[CounterKey(prefix, date)].expireAt.None?)
    ensures NextId(s, prefix, now1, date).Returned?
    ensures var s1 := NextId(s, prefix, now1, date).value.0;
            && NextId(s1, prefix, now2, date).Returned?
            && NextId(s, prefix, now1, date).value.1 < NextId(s1, prefix, now2, date).value.1
  {
    var key := CounterKey(prefix, date);
    TimeStampMonotonic(now1, now2);
    var c1 := CounterAdvances(s, key, now1, now2);
    var s1 := Incr(s, key, now1).value.0;
    NextIdValue(s, prefix, now1, date);
    NextIdValue(s1, prefix, now2, date);
  }

  /** NextId's result once the INCR outcome is known and both halves fit. */
  lemma NextIdValue<V>(s: Store<V>, prefix: string, now: Long, date: string)
    requires Incr(s, CounterKey(prefix, date), now).Returned?
    requires TimeStampFits(TimeStamp(now)) && CounterFits(Incr(s, CounterKey(prefix, date), now).value.1)
    ensures NextId(s, prefix, now, date).Returned?
    ensures NextId(s, prefix, now, date).value.0 == Incr(s, CounterKey(prefix, date), now).value.0
    ensures NextId(s, prefix, now, date).value.1
            == TimeStamp(now) * TWO_32 + Incr(s, CounterKey(prefix, date), now).value.1
  {
  }

  lemma TimeStampMonotonic(now1: Long, now2: Long)
    requires now1 <= now2
    requires 0 <= TimeStamp(now1) < 0x8000_0000 && 0 <= TimeStamp(now2) < 0x8000_0000
    ensures TimeStamp(now1) <= TimeStamp(now2)
  {
    if now1 < -TWO_63 + BEGIN_TIMESTAMP {
      assert false;
    }
    TimeStampSign(now1);
    TimeStampSign(now2);
  }

  /** Two INCRs of a counter without expiry return c and then c + 1. */
  lemma CounterAdvances<V>(s: Store<V>, key: string, now1: int, now2: int) returns (c1: int)
    requires now1 <= now2
    requires Get(s, key, now1).None?
          || (IncrementableAt(s, key, now1) && 0 <= s[key].data.n < TWO_32 - 2 && s[key].expireAt.None?)
    ensures Incr(s, key, now1).Returned? && Incr(s, key, now1).value.1 == c1
    ensures 1 <= c1 < TWO_32 - 1
    ensures var s1 := Incr(s, key, now1).value.0;
            Incr(s1, key, now2).Returned? && Incr(s1, key, now2).value.1 == c1 + 1
  {
    var i1 := Incr(s, key, now1);
    var s1 := i1.value.0;
    c1 := i1.value.1;
    assert s1[key] == Entry(Counter(c1), s1[key].expireAt);
    assert s1[key].expireAt.None?;
    assert IncrementableAt(s1, key, now2);
  }
}

=== FILE: java_long.dfy ===
/** Java `long` arithmetic on unbounded integers: the 64-bit two's-complement range,
    the wrap-around of `<<`, and the bitwise `|` on 64-bit patterns. */
module JavaLong {

  const TWO_32: int := 0x1_0000_0000
  const TWO_63: int := 0x8000_0000_0000_0000
  const TWO_64: int := 0x1_0000_0000_0000_0000

  /** The values a Java `long` can hold. */
  type Long = x: int | -TWO_63 <= x < TWO_63

  function Pow2(n: nat): (r: nat)
    ensures r >= 1
  {
    if n == 0 then 1 else 2 * Pow2(n - 1)
  }

  /** 2^(k + 8) is 2^k shifted by one more byte. */
  lemma Pow2Byte(k: nat)
    ensures Pow2(k + 8) == 256 * Pow2(k)
  {
    var p := Pow2(k);
    assert Pow2(k + 8) == 2 * Pow2(k + 7) == 4 * Pow2(k + 6) == 8 * Pow2(k + 5) == 16 * Pow2(k + 4);
    assert Pow2(k + 4) == 2 * Pow2(k + 3) == 4 * Pow2(k + 2) == 8 * Pow2(k + 1) == 16 * p;
  }

  lemma Pow2Values()
    ensures Pow2(32) == TWO_32 && Pow2(64) == TWO_64
  {
    Pow2Byte(0);
    Pow2Byte(8);
    Pow2Byte(16);
    Pow2Byte(24);
    Pow2Byte(32);
    Pow2Byte(40);
    Pow2Byte(48);
    Pow2Byte(56);
  }

  /** The 64-bit two's-complement pattern of `x`, read as an unsigned number. */
  function Bits(x: int): (u: nat)
    ensures u < TWO_64
    ensures (u - x) % TWO_64 == 0
  {
    x % TWO_64
  }

  /** The signed value of a 64-bit pattern. */
  function FromBits(u: nat): (x: Long)
    requires u < TWO_64
    ensures Bits(x) == u
  {
    if u < TWO_63 then u else u - TWO_64
  }

  /** Narrowing of an exact integer result to `long`, as Java's arithmetic does on overflow. */
  function Wrap(x: int): (r: Long)
    ensures (r - x) % TWO_64 == 0
    ensures -TWO_63 <= x < TWO_63 ==> r == x
  {
    FromBits(Bits(x))
  }

  /** Java `(int) x` on a long: the low 32 bits as a signed 32-bit value. */
  function IntValue(x: int): (r: int)
    ensures -0x8000_0000 <= r < 0x8000_0000
    ensures (r - x) % TWO_32 == 0
    ensures -0x8000_0000 <= x < 0x8000_0000 ==> r == x
  {
    var low := x % TWO_32;
    if low < 0x8000_0000 then low else low - TWO_32
  }

  /** Java `x << 32` on a long: the product with 2^32, wrapped to 64 bits. */
  function ShiftLeft32(x: Long): (r: Long)
    ensures (r - x * TWO_32) % TWO_64 == 0
  {
    Wrap(x * TWO_32)
  }

  /** Java `x >> 32` on a long: arithmetic shift, which rounds towards negative infinity. */
  function ShiftRight32(x: Long): (r: Long)
    ensures r * TWO_32 <= x < (r + 1) * TWO_32
  {
    x / TWO_32
  }

  /** Java `x & 0xFFFFFFFFL`: the low 32 bits of the two's-complement pattern. */
  function Low32(x: Long): (r: int)
    ensures 0 <= r < TWO_32
    ensures (x - r) % TWO_32 == 0
  {
    x % TWO_32
  }

  /** Bitwise OR of the low `n` bits of two unsigned patterns. */
  function OrBits(a: nat, b: nat, n: nat): nat
    decreases n
  {
    if n == 0 then 0
    else 2 * OrBits(a / 2, b / 2, n - 1) + (if a % 2 == 1 || b % 2 == 1 then 1 else 0)
  }

  /** The OR of the low n bits fits in n bits. */
  lemma {:induction false} OrBitsBound(a: nat, b: nat, n: nat)
    ensures OrBits(a, b, n) < Pow2(n)
    decreases n
  {
    if n > 0 {
      OrBitsBound(a / 2, b / 2, n - 1);
    }
  }

  /** Java `x | y` on longs. */
  function Or(x: Long, y: Long): Long {
    OrBitsBound(Bits(x), Bits(y), 64);
    Pow2Values();
    FromBits(OrBits(Bits(x), Bits(y), 64))
  }

  /** OR with zero keeps the low n bits of a pattern that fits in n bits. */
  lemma {:induction false} OrBitsZero(a: nat, n: nat)
    requires a < Pow2(n)
    ensures OrBits(a, 0, n) == a
    decreases n
  {
    if n > 0 {
      OrBitsZero(a / 2, n - 1);
    }
  }

  /** `a << k` on unbounded naturals, as k doublings. */
  function Shl(a: nat, k: nat): nat {
    if k == 0 then a else 2 * Shl(a, k - 1)
  }

  /** Shifting left by k bits multiplies by 2^k. */
  lemma {:induction false} ShlIsMul(a: nat, k: nat)
    ensures Shl(a, k) == a * Pow2(k)
  {
    if k > 0 {
      ShlIsMul(a, k - 1);
      var p := Pow2(k - 1);
      assert a * (2 * p) == 2 * (a * p);
    }
  }

  /** Dropping the lowest bit halves the bound. */
  lemma HalfBelow(b: nat, k: nat)
    requires k > 0 && b < Pow2(k)
    ensures b / 2 < Pow2(k - 1)
  {
  }

  /** OR of an even pattern: its lowest bit comes from `b` alone. */
  lemma OrBitsEven(h: nat, b: nat, n: nat)
    requires n > 0
    ensures OrBits(2 * h, b, n) == 2 * OrBits(h, b / 2, n - 1) + b % 2
  {
    assert (2 * h) / 2 == h && (2 * h) % 2 == 0;
  }

  /** OR with the low k bits clear on one side is addition. */
  lemma {:induction false} OrBitsShl(a: nat, b: nat, k: nat, n: nat)
    requires k <= n
    requires b < Pow2(k)
    requires a < Pow2(n - k)
    ensures OrBits(Shl(a, k), b, n) == Shl(a, k) + b
    decreases k
  {
    if k == 0 {
      assert b == 0;
      OrBitsZero(a, n);
    } else {
      HalfBelow(b, k);
      assert (n - 1) - (k - 1) == n - k;
      OrBitsShl(a, b / 2, k - 1, n - 1);
      OrBitsEven(Shl(a, k - 1), b, n);
    }
  }

  /** When the set bits of the two operands do not overlap, OR is addition:
      `(a << k) | b == a * 2^k + b` for `b < 2^k`. */
  lemma OrBitsDisjoint(a: nat, b: nat, k: nat, n: nat)
    requires k <= n
    requires b < Pow2(k)
    requires a < Pow2(n - k)
    ensures OrBits(a * Pow2(k), b, n) == a * Pow2(k) + b
  {
    ShlIsMul(a, k);
    OrBitsShl(a, b, k, n);
  }

  /** A 32-bit pattern shifted into the high half and OR-ed with a 32-bit pattern
      in the low half gives their sum. */
  lemma OrHighLow(u: nat, c: nat)
    requires u < TWO_32 && c < TWO_32
    ensures OrBits(u * TWO_32, c, 64) == u * TWO_32 + c
  {
    Pow2Values();
    OrBitsDisjoint(u, c, 32, 64);
  }
}

=== FILE: java_strings.dfy ===
/** The string facts Redis key construction relies on: Java's decimal rendering of
    `long` values (`Long.toString`, used by `prefix + id`), hutool's blank test, and
    cancellation laws for concatenation. */
module JavaStrings {

  predicate IsDigit(c: char) {
    '0' <= c <= '9'
  }

  function DigitChar(d: int): (c: char)
    requires 0 <= d < 10
    ensures IsDigit(c)
  {
    ('0' as int + d) as char
  }

  /** Decimal digits of a natural number, most significant first, no leading zeros. */
  function NatToString(n: nat): (r: string)
    ensures |r| >= 1
    ensures IsDigit(r[0])
    ensures n < 10 <==> |r| == 1
    decreases n
  {
    if n < 10 then [DigitChar(n)] else NatToString(n / 10) + [DigitChar(n % 10)]
  }

  /** `Long.toString(x)`: a minus sign for negative values, then the digits of |x|. */
  function LongToString(x: int): string {
    if x < 0 then "-" + NatToString(-x) else NatToString(x)
  }

  /** The rendering is never empty and starts with a minus sign exactly for
      negative values. */
  lemma LongToStringSign(x: int)
    ensures |LongToString(x)| >= 1
    ensures x < 0 <==> LongToString(x)[0] == '-'
  {
    if x >= 0 {
      assert IsDigit(NatToString(x)[0]);
    }
  }

  /** Every character of the rendering is a decimal digit. */
  lemma {:induction false} NatToStringAllDigits(n: nat)
    ensures forall i :: 0 <= i < |NatToString(n)| ==> IsDigit(NatToString(n)[i])
    decreases n
  {
    if n >= 10 {
      NatToStringAllDigits(n / 10);
      var s := NatToString(n);
      assert s == NatToString(n / 10) + [DigitChar(n % 10)];
      forall i | 0 <= i < |s|
        ensures IsDigit(s[i])
      {
        if i < |s| - 1 {
          assert s[i] == NatToString(n / 10)[i];
        }
      }
    }
  }

  lemma {:induction false} NatToStringInjective(a: nat, b: nat)
    requires NatToString(a) == NatToString(b)
    ensures a == b
    decreases a
  {
    var s := NatToString(a);
    if a < 10 {
      assert b < 10;
    } else {
      assert b >= 10;
      assert s == NatToString(a / 10) + [DigitChar(a % 10)];
      assert s == NatToString(b / 10) + [DigitChar(b % 10)];
      assert s[|s| - 1] == DigitChar(a % 10) == DigitChar(b % 10);
      assert NatToString(a / 10) == s[..|s| - 1] == NatToString(b / 10);
      NatToStringInjective(a / 10, b / 10);
    }
  }

  /** Distinct longs render to distinct strings, so `prefix + id` keys never collide. */
  lemma LongToStringInjective(a: int, b: int)
    requires LongToString(a) == LongToString(b)
    ensures a == b
  {
    var s := LongToString(a);
    LongToStringSign(a);
    LongToStringSign(b);
    if a < 0 {
      assert b < 0;
      assert NatToString(-a) == s[1..] == NatToString(-b);
      NatToStringInjective(-a, -b);
    } else {
      assert b >= 0;
      NatToStringInjective(a, b);
    }
  }

  /** Concatenation after a common prefix cancels. */
  lemma PrefixCancel(p: string, a: string, b: string)
    requires p + a == p + b
    ensures a == b
  {
    assert a == (p + a)[|p|..];
    assert b == (p + b)[|p|..];
  }

  /** Two concatenations whose first parts have equal length agree part by part. */
  lemma SplitCancel(a1: string, b1: string, a2: string, b2: string)
    requires |a1| == |a2|
    requires a1 + b1 == a2 + b2
    ensures a1 == a2 && b1 == b2
  {
    assert a1 == (a1 + b1)[..|a1|];
    assert a2 == (a2 + b2)[..|a2|];
    assert b1 == (a1 + b1)[|a1|..];
    assert b2 == (a2 + b2)[|a2|..];
  }

  /** Concatenation before a common suffix cancels. */
  lemma SuffixCancel(a: string, b: string, q: string)
    requires a + q == b + q
    ensures a == b
  {
    SplitCancel(a, q, b, q);
  }

  /** A key `prefix + Long.toString(id)` determines `id`. */
  lemma IdKeyInjective(prefix: string, a: int, b: int)
    requires prefix + LongToString(a) == prefix + LongToString(b)
    ensures a == b
  {
    PrefixCancel(prefix, LongToString(a), LongToString(b));
    LongToStringInjective(a, b);
  }

  /** `Character.isSpaceChar`: the space, line and paragraph separators of the
      Unicode tables Java 8 uses. */
  predicate IsSpaceChar(c: char) {
    c == ' ' || c == '\U{00A0}' || c == '\U{1680}' || c == '\U{180E}' || ('\U{2000}' <= c <= '\U{200A}')
    || c == '\U{2028}' || c == '\U{2029}' || c == '\U{202F}' || c == '\U{205F}' || c == '\U{3000}'
  }

  /** `Character.isWhitespace`: the separators except the no-break spaces, plus the
      ASCII controls tab, line feed, vertical tab, form feed, carriage return and
      the four information separators U+001C to U+001F. */
  predicate IsWhitespace(c: char) {
    (IsSpaceChar(c) && c != '\U{00A0}' && c != '\U{2007}' && c != '\U{202F}')
    || ('\t' <= c <= '\r') || ('\U{001C}' <= c <= '\U{001F}')
  }

  /** hutool's `CharUtil.isBlankChar`: Java whitespace or space characters, plus
      the byte-order mark, U+202A, NUL, the Hangul filler U+3164, the blank
      Braille pattern U+2800 and U+180E. */
  predicate IsBlankChar(c: char) {
    IsWhitespace(c) || IsSpaceChar(c)
    || c == '\U{FEFF}' || c == '\U{202A}' || c == '\U{0000}' || c == '\U{3164}' || c == '\U{2800}' || c == '\U{180E}'
  }

  /** The characters the blank test accepts beyond the ASCII ones, among them the
      information separators and the typographic spaces. */
  lemma BlankBeyondAscii()
    ensures IsBlankChar('\U{001C}') && IsBlankChar('\U{2003}') && IsBlankChar('\U{2028}')
    ensures IsBlankChar('\U{205F}') && IsBlankChar('\U{1680}') && IsBlankChar('\U{3164}')
    ensures !IsBlankChar('a') && !IsBlankChar('\U{200B}')
  {
  }

  /** `StrUtil.isBlank` on a non-null string: empty or only blank characters. */
  predicate IsBlank(s: string) {
    forall i :: 0 <= i < |s| ==> IsBlankChar(s[i])
  }
}

=== FILE: kv_store.dfy ===
/** The Redis string commands the application uses, over an immutable map with
    explicit time. Time is in whole seconds; an entry with an expiry is gone from
    the moment `now` reaches it. Values are kept already deserialised: `Obj(v)` is
    the JSON text of `v` (hutool's JSON mapping is taken to round-trip exactly),
    `Counter(n)` is an integer written by INCR, and `Text(s)` is any other string. */
module KvStore {
  import opened Wrappers
  import opened JavaLong

  datatype Data<V> = Text(s: string) | Counter(n: int) | Obj(v: V)

  datatype Entry<V> = Entry(data: Data<V>, expireAt: Option<int>)

  type Store<V> = map<string, Entry<V>>

  /** The error reply to SET with an EX that is not positive; nothing is written. */
  const INVALID_EXPIRE: string := "ERR invalid expire time in 'set' command"

  /** The key holds a value that has not expired at time `now`. */
  predicate Live<V>(s: Store<V>, key: string, now: int) {
    key in s && (s[key].expireAt.None? || now < s[key].expireAt.value)
  }

  /** GET key */
  function Get<V>(s: Store<V>, key: string, now: int): Option<Data<V>> {
    if Live(s, key, now) then Some(s[key].data) else None
  }

  /** The expiry instant of a write made at `now` with an optional TTL in seconds. */
  function ExpiryOf(ttl: Option<nat>, now: int): Option<int> {
    if ttl.Some? then Some(now + ttl.value) else None
  }

  /** SET key value [EX ttl]: replaces whatever the key held, live or expired. */
  function Set<V>(s: Store<V>, key: string, d: Data<V>, ttl: Option<nat>, now: int): (r: Store<V>)
    requires ttl.Some? ==> ttl.value > 0
    ensures Get(r, key, now) == Some(d)
    ensures forall t :: now <= t && (ttl.None? || t < now + ttl.value) ==> Get(r, key, t) == Some(d)
    ensures ttl.Some? ==> forall t :: t >= now + ttl.value ==> Get(r, key, t).None?
    ensures forall k :: k != key ==> (k in r <==> k in s)
    ensures forall k :: k != key && k in s ==> r[k] == s[k]
  {
    s[key := Entry(d, ExpiryOf(ttl, now))]
  }

  /** SET key value NX EX ttl: writes only when the key holds no live value, and
      reports whether it wrote. */
  function SetIfAbsent<V>(s: Store<V>, key: string, d: Data<V>, ttl: nat, now: int): (r: (Store<V>, bool))
    requires ttl > 0
    ensures r.1 <==> Get(s, key, now).None?
    ensures r.1 ==> forall t :: now <= t < now + ttl ==> Get(r.0, key, t) == Some(d)
    ensures !r.1 ==> r.0 == s
    ensures forall k :: k != key ==> (k in r.0 <==> k in s)
    ensures forall k :: k != key && k in s ==> r.0[k] == s[k]
  {
    if Live(s, key, now) then (s, false) else (Set(s, key, d, Some(ttl), now), true)
  }

  /** DEL key */
  function Delete<V>(s: Store<V>, key: string): (r: Store<V>)
    ensures forall t :: Get(r, key, t).None?
    ensures forall k, t :: k != key ==> Get(r, k, t) == Get(s, k, t)
    ensures r.Keys == s.Keys - {key}
  {
    s - {key}
  }

  /** The live value under `key` is a counter whose successor is still a `long`. */
  predicate IncrementableAt<V>(s: Store<V>, key: string, now: int) {
    Live(s, key, now) && s[key].data.Counter? && -TWO_63 <= s[key].data.n + 1 < TWO_63
  }

  /** INCR key: a missing or expired key starts from 0; a counter is incremented and
      keeps its expiry; a non-integer value or a result beyond the `long` range is an
      error reply, surfaced to Java as an exception. */
  function Incr<V>(s: Store<V>, key: string, now: int): (r: Outcome<(Store<V>, Long)>)
    ensures r.Returned? ==> Get(r.value.0, key, now) == Some(Counter(r.value.1))
    ensures Get(s, key, now).None? ==> r == Returned((s[key := Entry(Counter(1), None)], 1))
    ensures r.Returned? <==> (Get(s, key, now).None? || IncrementableAt(s, key, now))
    ensures r.Returned? && Get(s, key, now).Some? ==> r.value.1 == s[key].data.n + 1
    ensures r.Returned? ==> forall k :: k != key ==> (k in r.value.0 <==> k in s)
    ensures r.Returned? ==> forall k :: k != key && k in s ==> r.value.0[k] == s[k]
  {
    if !Live(s, key, now) then
      Returned((s[key := Entry(Counter(1), None)], 1))
    else match s[key].data
      case Counter(n) =>
        if n + 1 < TWO_63 && n + 1 >= -TWO_63 then
          Returned((s[key := Entry(Counter(n + 1), s[key].expireAt)], n + 1))
        else Outcome<(Store<V>, Long)>.Threw("ERR increment or decrement would overflow")
      case _ => Outcome<(Store<V>, Long)>.Threw("ERR value is not an integer or out of range")
  }

  /** A later SET on a key hides every earlier write to it. */
  lemma SetOverwrites<V>(s: Store<V>, key: string, d1: Data<V>, d2: Data<V>, ttl1: Option<nat>, ttl2: Option<nat>, now: int)
    requires ttl1.Some? ==> ttl1.value > 0
    requires ttl2.Some? ==> ttl2.value > 0
    ensures Set(Set(s, key, d1, ttl1, now), key, d2, ttl2, now) == Set(s, key, d2, ttl2, now)
  {
  }
}

=== FILE: redis_constants.dfy ===
/** Key prefixes and TTLs the services share. RedisConstants.java and
    SystemConstants.java are not part of this model: the values below follow the
    upstream course project this repository derives from. No proof depends on a
    value beyond the TTLs being positive and the prefixes being fixed strings. */
module RedisConstants {

  const CACHE_NULL_TTL: nat := 2          // minutes
  const CACHE_SHOP_KEY: string := "cache:shop:"
  const CACHE_SHOP_TTL: nat := 30         // minutes
  const LOCK_SHOP_KEY: string := "lock:shop:"
  const CACHE_SHOP_TYPE: string := "cache:shopType"
  const LOGIN_CODE_KEY: string := "login:code:"
  const LOGIN_CODE_TTL: nat := 2          // minutes
  const LOGIN_USER_KEY: string := "login:token:"
  const LOGIN_USER_TTL: nat := 36000      // minutes
  const USER_NICK_NAME_PREFIX: string := "user_"
  const BLOG_LIKED_KEY: string := "blog:liked:"
  const FEED_KEY: string := "feed:"
  const FOLLOW_KEY: string := "follows:"

  /** `java.util.concurrent.TimeUnit`, restricted to the units the services use. */
  datatype TimeUnit = Seconds | Minutes | Hours

  /** `unit.toSeconds(amount)` */
  function ToSeconds(amount: nat, unit: TimeUnit): (r: nat)
    ensures amount > 0 ==> r >= amount
  {
    match unit
    case Seconds => amount
    case Minutes => amount * 60
    case Hours => amount * 3600
  }
}

=== FILE: seckill.dfy ===
/** The part of the flash-sale front end that the in-process-queue variant
    (`VoucherOrderServiceImpl.secKillByVoucherId`) and the message-broker variant
    (`SeckillVoucherServiceImpl.secKillByVoucherId`) share, line for line: the
    time-window gate, the mapping of the admission script's result code to a
    failure message, and the allocation of the order id. The admission script
    secKill.lua is not part of this model: its result code is an input here, and
    module AdmissionScript states the behaviour assumed of it. */
module Seckill {
  import opened Wrappers
  import opened JavaLong
  import opened JavaStrings
  import opened KvStore
  import RedisIdGenerator

  /** The order record handed to the asynchronous stage. */
  datatype VoucherOrder = VoucherOrder(id: Long, voucherId: Long, userId: Long)

  /** The voucher hash read from Redis (`SeckillVoucherRedis`), times in epoch seconds. */
  datatype SeckillVoucherRedis = SeckillVoucherRedis(stock: int, beginTime: int, endTime: int)

  const NOT_STARTED: string := "秒杀尚未开始！"
  const ENDED: string := "秒杀已经结束！"
  const SOLD_OUT: string := "库存不足！"
  const DUPLICATE: string := "一人只能下一单"
  const ORDER_PREFIX: string := "order"

  /** The window check: `beginTime.isAfter(now)` rejects first, then `endTime.isBefore(now)`. */
  function WindowGate(svr: SeckillVoucherRedis, now: int): (r: Option<string>)
    ensures r.None? <==> svr.beginTime <= now <= svr.endTime
    ensures r == Some(NOT_STARTED) <==> now < svr.beginTime
    ensures r == Some(ENDED) <==> svr.beginTime <= now && svr.endTime < now
  {
    if svr.beginTime > now then Some(NOT_STARTED)
    else if svr.endTime < now then Some(ENDED)
    else None
  }

  /** The reading of the script's `Long` result through `res.intValue()`: 0 admits,
      1 means sold out, anything else a repeated order. */
  function ScriptVerdict(code: Long): (r: Option<string>)
    ensures r.None? <==> IntValue(code) == 0
    ensures r == Some(SOLD_OUT) <==> IntValue(code) == 1
    ensures r == Some(DUPLICATE) <==> IntValue(code) != 0 && IntValue(code) != 1
  {
    var i := IntValue(code);
    if i == 0 then None else if i == 1 then Some(SOLD_OUT) else Some(DUPLICATE)
  }

  /** How a request fares before the hand-off: refused with a message, aborted by an
      exception, or admitted with its order and the id counter advanced. */
  datatype Admission<V> =
    | Refused(reason: string)
    | Aborted(cause: string)
    | Admitted(order: VoucherOrder, store: Store<V>)

  /** Lines shared by both variants up to building the `VoucherOrder`. `svr` is None
      when the voucher hash is missing, so that `getBeginTime()` is null and throws. */
  function Admit<V>(s: Store<V>, svr: Option<SeckillVoucherRedis>, voucherId: Long, userId: Long,
                    now: Long, date: string, code: Long): (r: Admission<V>)
    ensures svr.None? ==> r.Aborted?
    ensures svr.Some? && WindowGate(svr.value, now).Some? ==> r == Refused(WindowGate(svr.value, now).value)
    ensures svr.Some? && WindowGate(svr.value, now).None? && IntValue(code) == 1 ==> r == Refused(SOLD_OUT)
    ensures svr.Some? && WindowGate(svr.value, now).None? && IntValue(code) != 0 && IntValue(code) != 1 ==>
              r == Refused(DUPLICATE)
    ensures svr.Some? && WindowGate(svr.value, now).None? && IntValue(code) == 0 ==>
              var n := RedisIdGenerator.NextId(s, ORDER_PREFIX, now, date);
              && (r.Admitted? <==> n.Returned?)
              && (r.Admitted? ==> r.order == VoucherOrder(n.value.1, voucherId, userId) && r.store == n.value.0)
  {
    if svr.None? then Aborted("NullPointerException: voucher window missing")
    else if WindowGate(svr.value, now).Some? then Refused(WindowGate(svr.value, now).value)
    else if ScriptVerdict(code).Some? then Refused(ScriptVerdict(code).value)
    else match RedisIdGenerator.NextId(s, ORDER_PREFIX, now, date)
      case Threw(e) => Aborted(e)
      case Returned((s', orderId)) => Admitted(VoucherOrder(orderId, voucherId, userId), s')
  }

  /** The window is closed at both ends: a request exactly at `beginTime` or at
      `endTime` passes the gate, one a second outside it does not. */
  lemma WindowInclusive(svr: SeckillVoucherRedis)
    requires svr.beginTime <= svr.endTime
    ensures WindowGate(svr, svr.beginTime).None? && WindowGate(svr, svr.endTime).None?
    ensures WindowGate(svr, svr.beginTime - 1) == Some(NOT_STARTED)
    ensures WindowGate(svr, svr.endTime + 1) == Some(ENDED)
  {
  }

  /** The per-user lock of the materialising stage: `"lock:order:" + userId`. */
  function OrderLockName(userId: Long): string {
    "lock:order:" + LongToString(userId)
  }

  /** Orders of different users take different locks and never contend. */
  lemma OrderLockPerUser(u1: Long, u2: Long)
    ensures OrderLockName(u1) == OrderLockName(u2) <==> u1 == u2
  {
    if OrderLockName(u1) == OrderLockName(u2) {
      IdKeyInjective("lock:order:", u1, u2);
    }
  }
}

=== FILE: seckill_voucher_service.dfy ===
/** `SeckillVoucherServiceImpl.secKillByVoucherId`: the message-broker variant of
    the flash sale. Admission is the same as in the queue variant; the order is
    published to a topic exchange instead of a local queue, and a failed publish is
    logged without undoing the admission. The broker itself is not modelled: a
    publish either appends the message to the sequence of published messages or
    fails, as the parameter `publishOk` says. */
module SeckillVoucherService {
  import opened Wrappers
  import opened JavaLong
  import opened KvStore
  import opened Seckill

  const EXCHANGE: string := "secKill.topic"
  const ROUTING_KEY: string := "secKill.success"

  datatype Message = Message(exchange: string, routingKey: string, order: VoucherOrder)

  /** The Redis store (for the id counters) and the messages published so far. */
  datatype BrokerState<V> = BrokerState(store: Store<V>, published: seq<Message>)

  function SecKillByVoucherId<V>(st: BrokerState<V>, svr: Option<SeckillVoucherRedis>, voucherId: Long,
                                 userId: Long, now: Long, date: string, code: Long,
                                 publishOk: bool): (r: (Outcome<Reply<Long>>, BrokerState<V>))
    ensures Admit(st.store, svr, voucherId, userId, now, date, code).Refused? ==>
              r == (Returned(Fail(Admit(st.store, svr, voucherId, userId, now, date, code).reason)), st)
    ensures Admit(st.store, svr, voucherId, userId, now, date, code).Aborted? ==> r.0.Threw? && r.1 == st
    ensures Admit(st.store, svr, voucherId, userId, now, date, code).Admitted? ==>
              && r.0.Returned? && r.0.value.Ok?
              && r.0.value.data == Admit(st.store, svr, voucherId, userId, now, date, code).order.id
              && r.1.store == Admit(st.store, svr, voucherId, userId, now, date, code).store
    ensures r.0.Returned? && r.0.value.Ok? ==>
              r.1.published == st.published
                + (if publishOk then [Message(EXCHANGE, ROUTING_KEY, VoucherOrder(r.0.value.data, voucherId, userId))]
                   else [])
    ensures !(r.0.Returned? && r.0.value.Ok?) ==> r.1.published == st.published
  {
    match Admit(st.store, svr, voucherId, userId, now, date, code)
    case Refused(reason) => (Returned(Fail(reason)), st)
    case Aborted(cause) => (Threw(cause), st)
    case Admitted(order, s') =>
      var published := if publishOk then st.published + [Message(EXCHANGE, ROUTING_KEY, order)]
                       else st.published;  // a failed send is only logged
      (Returned(Ok(order.id)), BrokerState(s', published))
  }

  /** The outcome a caller sees does not depend on the broker: a publish failure
      changes only what was published. */
  lemma ReplyIndependentOfBroker<V>(st: BrokerState<V>, svr: Option<SeckillVoucherRedis>, voucherId: Long,
                                    userId: Long, now: Long, date: string, code: Long)
    ensures SecKillByVoucherId(st, svr, voucherId, userId, now, date, code, true).0
         == SecKillByVoucherId(st, svr, voucherId, userId, now, date, code, false).0
    ensures SecKillByVoucherId(st, svr, voucherId, userId, now, date, code, true).1.store
         == SecKillByVoucherId(st, svr, voucherId, userId, now, date, code, false).1.store
  {
  }
}

=== FILE: shop_service.dfy ===
/** Shop lookup through the penetration-guarded cache, and shop update with cache
    invalidation after the database write. */
module ShopService {
  import opened Wrappers
  import opened JavaLong
  import opened JavaStrings
  import opened KvStore
  import opened RedisConstants
  import opened CacheUtil

  /** A shop row; `details` stands for the columns the logic never inspects. */
  datatype Shop = Shop(id: Option<Long>, details: string)

  type ShopTable = map<Long, Shop>

  const SHOP_NOT_FOUND: string := "店铺不存在！"
  const SHOP_ID_REQUIRED: string := "店铺id不能为空！"
  const UPDATE_FAILED: string := "DataAccessException"

  /** getById, the loader behind the cache. */
  function GetById(db: ShopTable, id: Long): Outcome<Option<Shop>> {
    Returned(if id in db then Some(db[id]) else None)
  }

  function ShopKey(id: Long): string {
    CACHE_SHOP_KEY + LongToString(id)
  }

  /** queryById: fails with "店铺不存在！" exactly when the cache holds the absent
      marker or, on a miss, the table has no such row; otherwise returns the shop,
      from the cache on a hit and from the table on a miss. */
  function QueryById(s: Cache<Shop>, db: ShopTable, id: Long, now: int): (r: (Outcome<Reply<Shop>>, Cache<Shop>))
    ensures r.0 == Returned(Fail(SHOP_NOT_FOUND)) <==>
              || (Get(s, ShopKey(id), now).Some? && IsBlankRead(Get(s, ShopKey(id), now)))
              || (Get(s, ShopKey(id), now).None? && id !in db)
    ensures IsBean(Get(s, ShopKey(id), now)) ==> r == (Returned(Ok(Get(s, ShopKey(id), now).value.v.bean)), s)
    ensures Get(s, ShopKey(id), now).None? && id in db ==>
              && r.0 == Returned(Ok(db[id]))
              && forall t :: now <= t < now + CACHE_SHOP_TTL * 60 ==> Get(r.1, ShopKey(id), t) == Some(Obj(Bean(db[id])))
    ensures Get(s, ShopKey(id), now).None? && id !in db ==>
              forall t :: now <= t < now + CACHE_NULL_TTL * 60 ==> Get(r.1, ShopKey(id), t) == Some(Text(""))
    ensures forall k, t :: k != ShopKey(id) ==> Get(r.1, k, t) == Get(s, k, t)
  {
    var (shop, s') := GetObject(s, CACHE_SHOP_KEY, LongToString(id), GetById(db, id), CACHE_SHOP_TTL, Minutes, now);
    match shop
    case Threw(cause) => (Threw(cause), s')
    case Returned(None) => (Returned(Fail(SHOP_NOT_FOUND)), s')
    case Returned(Some(found)) => (Returned(Ok(found)), s')
  }

  /** update: a shop without an id is refused with no write at all. Otherwise the
      row is updated (a missing row is left alone, as UPDATE ... WHERE id matches
      nothing) and then the cached copy is deleted. A database fault rolls the
      transaction back before the cache is touched. */
  function Update(s: Cache<Shop>, db: ShopTable, shop: Shop, dbFails: bool)
    : (r: (Outcome<Reply<Unit>>, Cache<Shop>, ShopTable))
    ensures shop.id.None? ==> r == (Returned(Fail(SHOP_ID_REQUIRED)), s, db)
    ensures shop.id.Some? && dbFails ==> r.0.Threw? && r.1 == s && r.2 == db
    ensures shop.id.Some? && !dbFails ==>
              && r.0 == Returned(Ok(Unit))
              && (forall t :: Get(r.1, ShopKey(shop.id.value), t).None?)
              && (forall k, t :: k != ShopKey(shop.id.value) ==> Get(r.1, k, t) == Get(s, k, t))
              && r.2.Keys == db.Keys
              && (shop.id.value in db ==> r.2[shop.id.value] == shop)
              && (forall k :: k in db && k != shop.id.value ==> r.2[k] == db[k])
  {
    if shop.id.None? then (Returned(Fail(SHOP_ID_REQUIRED)), s, db)
    else
      var id := shop.id.value;
      if dbFails then (Threw(UPDATE_FAILED), s, db)
      else
        var db' := if id in db then db[id := shop] else db;
        (Returned(Ok(Unit)), Delete(s, ShopKey(id)), db')
  }

  /** Read-your-writes, in the model only: here the row write counts as committed
      before the cache delete, so a query right after a successful update of an
      existing shop returns the updated row, whatever was cached. In the code the
      transaction commits after the delete (and the request thread parks before
      it), so a query in between sees the old row; see UncommittedUpdateRecachesOldRow. */
  lemma UpdateThenQuery(s: Cache<Shop>, db: ShopTable, shop: Shop, now: int)
    requires shop.id.Some? && shop.id.value in db
    ensures var (_, s', db') := Update(s, db, shop, false);
            QueryById(s', db', shop.id.value, now).0 == Returned(Ok(shop))
  {
  }

  /** The window the code leaves open: a query that runs after the cache delete but
      before the transaction commits reads the old row and caches it again for
      CACHE_SHOP_TTL minutes. */
  lemma UncommittedUpdateRecachesOldRow(s: Cache<Shop>, db: ShopTable, shop: Shop, now: int, t: int)
    requires shop.id.Some? && shop.id.value in db
    requires now <= t < now + CACHE_SHOP_TTL * 60
    ensures var (_, afterDelete, _) := Update(s, db, shop, false);
            var (reply, s') := QueryById(afterDelete, db, shop.id.value, now);
            && reply == Returned(Ok(db[shop.id.value]))
            && Get(s', ShopKey(shop.id.value), t) == Some(Obj(Bean(db[shop.id.value])))
  {
  }

  /** The cache answers for its TTL: after a miss, a repeated query within the
      absent-marker TTL gets the same reply even if the table has changed since. */
  lemma RepeatQueryAgrees(s: Cache<Shop>, db: ShopTable, db2: ShopTable, id: Long, now: int, t: int)
    requires Get(s, ShopKey(id), now).None?
    requires now <= t < now + CACHE_NULL_TTL * 60
    ensures var (first, s') := QueryById(s, db, id, now);
            QueryById(s', db2, id, t) == (first, s')
  {
    if id in db {
      CachedObjectShieldsLoader(s, CACHE_SHOP_KEY, LongToString(id), db[id], GetById(db2, id),
                                CACHE_SHOP_TTL, Minutes, now, t);
    } else {
      NullMarkerShieldsLoader(s, CACHE_SHOP_KEY, LongToString(id), GetById(db2, id),
                              CACHE_SHOP_TTL, Minutes, now, t);
    }
  }
}

=== FILE: shop_type_service.dfy ===
/** The shop-type list, cached whole under one key with no expiry. */
module ShopTypeService {
  import opened Wrappers
  import opened JavaLong
  import opened JavaStrings
  import opened KvStore
  import opened RedisConstants
  import opened CacheUtil

  datatype ShopType = ShopType(id: Long, name: string, sort: int)

  type TypeCache = Store<seq<ShopType>>

  /** The cache holds a non-blank value, which is what the list is read from. */
  predicate IsNotBlankRead(e: Option<Data<seq<ShopType>>>) {
    e.Some? && !(e.value.Text? && IsBlank(e.value.s))
  }

  /** queryList: a non-blank cached value is decoded and returned without a query.
      Otherwise the table's list is returned as queried, and cached with no TTL
      only when it is non-empty. `dbList` is what the query returns. */
  function QueryList(s: TypeCache, dbList: Outcome<seq<ShopType>>, now: int): (r: (Outcome<seq<ShopType>>, TypeCache))
    ensures IsNotBlankRead(Get(s, CACHE_SHOP_TYPE, now)) ==> r.1 == s
    ensures IsNotBlankRead(Get(s, CACHE_SHOP_TYPE, now)) && Get(s, CACHE_SHOP_TYPE, now).value.Obj? ==>
              r.0 == Returned(Get(s, CACHE_SHOP_TYPE, now).value.v)
    ensures !IsNotBlankRead(Get(s, CACHE_SHOP_TYPE, now)) ==> r.0 == dbList
    ensures !IsNotBlankRead(Get(s, CACHE_SHOP_TYPE, now)) && dbList.Returned? && |dbList.value| > 0 ==>
              forall t :: Get(r.1, CACHE_SHOP_TYPE, t) == Some(Obj(dbList.value))
    ensures !(dbList.Returned? && |dbList.value| > 0) ==> r.1 == s
    ensures forall k, t :: k != CACHE_SHOP_TYPE ==> Get(r.1, k, t) == Get(s, k, t)
  {
    var read := Get(s, CACHE_SHOP_TYPE, now);
    if IsNotBlankRead(read) then
      if read.value.Obj? then (Returned(read.value.v), s) else (Threw(BAD_JSON), s)
    else match dbList
      case Threw(_) => (dbList, s)
      case Returned(list) =>
        (dbList, if |list| > 0 then Set(s, CACHE_SHOP_TYPE, Obj(list), None, now) else s)
  }

  /** A non-empty list, once loaded, answers every later call at any time: the
      table is not queried again. */
  lemma LoadedListAnswersForever(s: TypeCache, list: seq<ShopType>, later: Outcome<seq<ShopType>>, now: int, t: int)
    requires !IsNotBlankRead(Get(s, CACHE_SHOP_TYPE, now))
    requires |list| > 0
    ensures var s' := QueryList(s, Returned(list), now).1;
            QueryList(s', later, t) == (Returned(list), s')
  {
    var s' := QueryList(s, Returned(list), now).1;
    assert Get(s', CACHE_SHOP_TYPE, t) == Some(Obj(list));
  }

  /** An empty list is never cached, so the next call queries the table again and
      returns whatever it now holds. */
  lemma EmptyListRequeries(s: TypeCache, later: Outcome<seq<ShopType>>, now: int)
    requires !IsNotBlankRead(Get(s, CACHE_SHOP_TYPE, now))
    ensures var s' := QueryList(s, Returned([]), now).1;
            s' == s && QueryList(s', later, now).0 == later
  {
  }
}

=== FILE: user_service.dfy ===
/** Phone login: a verification code kept in Redis for a few minutes, and a login
    token under which the user's public fields are kept. The phone-format check,
    the random code, the random nickname suffix, the token and the new row's id
    are inputs, as is whether the SMS gateway accepted the message. */
module UserService {
  import opened Wrappers
  import opened JavaLong
  import opened KvStore
  import opened RedisConstants

  datatype User = User(id: Long, phone: string, nickName: string, icon: string)

  /** The public part of a user, which is what a login token maps to. */
  datatype UserDTO = UserDTO(id: Long, nickName: string, icon: string)

  type UserTable = map<Long, User>

  datatype LoginForm = LoginForm(phone: string, code: Option<string>)

  const PHONE_INVALID: string := "请输入正确的手机号！"
  const CODE_MISMATCH: string := "验证码错误"
  const TOO_MANY_RESULTS: string := "TooManyResultsException"

  function ToDto(u: User): (r: UserDTO)
    ensures r.id == u.id && r.nickName == u.nickName && r.icon == u.icon
  {
    UserDTO(u.id, u.nickName, u.icon)
  }

  function CodeKey(phone: string): string {
    LOGIN_CODE_KEY + phone
  }

  function TokenKey(token: string): string {
    LOGIN_USER_KEY + token
  }

  /** The ids of the users registered with `phone`. */
  function WithPhone(users: UserTable, phone: string): (r: set<Long>)
    ensures forall id :: id in r <==> id in users && users[id].phone == phone
  {
    set id | id in users && users[id].phone == phone
  }

  /** sendCode: an invalid phone is refused and nothing is stored. Otherwise the
      code is stored for LOGIN_CODE_TTL minutes and the reply is ok whether or not
      the SMS went out. */
  function SendCode(s: Store<UserDTO>, phone: string, phoneInvalid: bool, code: string, smsSent: bool, now: int)
    : (r: (Reply<Unit>, Store<UserDTO>))
    ensures phoneInvalid ==> r == (Fail(PHONE_INVALID), s)
    ensures !phoneInvalid ==>
              && r.0 == Ok(Unit)
              && (forall t :: now <= t < now + LOGIN_CODE_TTL * 60 ==> Get(r.1, CodeKey(phone), t) == Some(Text(code)))
              && Get(r.1, CodeKey(phone), now + LOGIN_CODE_TTL * 60).None?
    ensures forall k, t :: k != CodeKey(phone) ==> Get(r.1, k, t) == Get(s, k, t)
  {
    if phoneInvalid then (Fail(PHONE_INVALID), s)
    else (Ok(Unit), Set(s, CodeKey(phone), Text(code), Some(ToSeconds(LOGIN_CODE_TTL, Minutes)), now))
  }

  /** createUserByPhone: a new row with the phone and a nickname "user_" followed
      by a random suffix; the database assigns a fresh id. */
  function CreateUserByPhone(users: UserTable, phone: string, nickSuffix: string, newId: Long)
    : (r: (User, UserTable))
    requires newId !in users
    ensures r.0.id == newId && r.0.phone == phone && r.0.nickName == USER_NICK_NAME_PREFIX + nickSuffix
    ensures r.0.icon == ""
    ensures r.1.Keys == users.Keys + {newId} && r.1[newId] == r.0
    ensures forall id :: id in users ==> r.1[id] == users[id]
  {
    var user := User(newId, phone, USER_NICK_NAME_PREFIX + nickSuffix, "");
    (user, users[newId := user])
  }

  /** A set of one element has no two different members. */
  lemma SingletonUnique<T>(s: set<T>)
    requires |s| == 1
    ensures forall a, b :: a in s && b in s ==> a == b
  {
    forall a, b | a in s && b in s
      ensures a == b
    {
      assert |s - {a}| == 0;
      assert b !in s - {a};
    }
  }

  /** The code check passes: no code given, or the given code equals the stored one. */
  predicate CodeAccepted(s: Store<UserDTO>, form: LoginForm, now: int) {
    form.code.None? || Get(s, CodeKey(form.phone), now) == Some(Text(form.code.value))
  }

  /** login: refuses an invalid phone, and a given code that differs from the stored
      one (a missing stored code never matches); a login without a code skips the
      check. Then the user with that phone is reused, or created when there is none;
      more than one such row is an error. The user's public fields are stored under
      the token for LOGIN_USER_TTL minutes and the token is returned. */
  function Login(s: Store<UserDTO>, users: UserTable, form: LoginForm, phoneInvalid: bool, token: string,
                 nickSuffix: string, newId: Long, now: int)
    : (r: (Outcome<Reply<string>>, Store<UserDTO>, UserTable))
    requires newId !in users
    ensures phoneInvalid ==> r == (Returned(Fail(PHONE_INVALID)), s, users)
    ensures !phoneInvalid && !CodeAccepted(s, form, now) ==> r == (Returned(Fail(CODE_MISMATCH)), s, users)
    ensures r.0 == Returned(Ok(token)) <==>
              !phoneInvalid && CodeAccepted(s, form, now) && |WithPhone(users, form.phone)| <= 1
    ensures r.0 == Returned(Ok(token)) ==>
              && (|WithPhone(users, form.phone)| == 1 ==> r.2 == users)
              && (|WithPhone(users, form.phone)| == 0 ==> r.2.Keys == users.Keys + {newId})
              && (exists id :: id in r.2 && r.2[id].phone == form.phone &&
                   forall t :: now <= t < now + LOGIN_USER_TTL * 60 ==> Get(r.1, TokenKey(token), t) == Some(Obj(ToDto(r.2[id]))))
    ensures r.0 == Returned(Ok(token)) && |WithPhone(users, form.phone)| == 0 ==>
              && r.2 == CreateUserByPhone(users, form.phone, nickSuffix, newId).1
              && forall t :: now <= t < now + LOGIN_USER_TTL * 60 ==>
                   Get(r.1, TokenKey(token), t) == Some(Obj(ToDto(r.2[newId])))
    ensures r.0 == Returned(Ok(token)) && |WithPhone(users, form.phone)| == 1 ==>
              forall id, t :: id in WithPhone(users, form.phone) && now <= t < now + LOGIN_USER_TTL * 60 ==>
                Get(r.1, TokenKey(token), t) == Some(Obj(ToDto(users[id])))
    ensures r.0.Returned? && r.0.value.Ok? ==> forall k, t :: k != TokenKey(token) ==> Get(r.1, k, t) == Get(s, k, t)
    ensures !(r.0.Returned? && r.0.value.Ok?) ==> r.1 == s && r.2 == users
  {
    if phoneInvalid then (Returned(Fail(PHONE_INVALID)), s, users)
    else if !CodeAccepted(s, form, now) then (Returned(Fail(CODE_MISMATCH)), s, users)
    else
      var found := WithPhone(users, form.phone);
      if |found| > 1 then (Threw(TOO_MANY_RESULTS), s, users)
      else
        var (user, users') :=
          if |found| == 1 then
            assert forall a, b :: a in found && b in found ==> a == b by { SingletonUnique(found); }
            var id :| id in found;
            (users[id], users)
          else CreateUserByPhone(users, form.phone, nickSuffix, newId);
        var s' := Set(s, TokenKey(token), Obj(ToDto(user)), Some(ToSeconds(LOGIN_USER_TTL, Minutes)), now);
        (Returned(Ok(token)), s', users')
  }

  /** A code just sent logs the phone in for LOGIN_CODE_TTL minutes. */
  lemma SentCodeLogsIn(s: Store<UserDTO>, users: UserTable, phone: string, code: string, smsSent: bool, now: int,
                       t: int, token: string, nickSuffix: string, newId: Long)
    requires now <= t < now + LOGIN_CODE_TTL * 60
    requires newId !in users
    requires |WithPhone(users, phone)| <= 1
    ensures var s' := SendCode(s, phone, false, code, smsSent, now).1;
            Login(s', users, LoginForm(phone, Some(code)), false, token, nickSuffix, newId, t).0 == Returned(Ok(token))
  {
  }

  /** Any other code is refused within the same window, with nothing created or
      stored. */
  lemma OtherCodeRefused(s: Store<UserDTO>, users: UserTable, phone: string, code: string, guess: string,
                         smsSent: bool, now: int, t: int, token: string, nickSuffix: string, newId: Long)
    requires now <= t < now + LOGIN_CODE_TTL * 60
    requires newId !in users
    requires guess != code
    ensures var s' := SendCode(s, phone, false, code, smsSent, now).1;
            Login(s', users, LoginForm(phone, Some(guess)), false, token, nickSuffix, newId, t)
              == (Returned(Fail(CODE_MISMATCH)), s', users)
  {
  }

  /** The first login of a new phone registers it; a second login reuses that user
      and maps its token to the same public fields. */
  lemma SecondLoginReusesUser(s: Store<UserDTO>, users: UserTable, phone: string, token1: string, token2: string,
                              nickSuffix: string, newId: Long, newId2: Long, now: int)
    requires WithPhone(users, phone) == {}
    requires newId !in users && newId2 !in users && newId2 != newId
    ensures var (r1, s1, users1) := Login(s, users, LoginForm(phone, None), false, token1, nickSuffix, newId, now);
            var (r2, s2, users2) := Login(s1, users1, LoginForm(phone, None), false, token2, nickSuffix, newId2, now);
            && r1 == Returned(Ok(token1)) && r2 == Returned(Ok(token2))
            && users1.Keys == users.Keys + {newId}
            && users2 == users1
            && Get(s2, TokenKey(token2), now) == Get(s1, TokenKey(token1), now)
  {
    var (r1, s1, users1) := Login(s, users, LoginForm(phone, None), false, token1, nickSuffix, newId, now);
    var (user, _) := CreateUserByPhone(users, phone, nickSuffix, newId);
    assert users1 == users[newId := user];
    assert WithPhone(users1, phone) == {newId};
    assert Get(s1, TokenKey(token1), now) == Some(Obj(ToDto(user)));
  }
}

=== FILE: voucher_order_listener.dfy ===
/** `VoucherOrderListener`: the consumer of the broker variant. Its private
    `handlerVoucherOrder` is the same lock-create-unlock sequence as the queue
    variant's worker, on the same lock name, so it is modelled by
    `VoucherOrderService.HandlerVoucherOrder`. RabbitMQ delivery is not modelled:
    `onMessage` is called once per delivered message. */
module VoucherOrderListener {
  import opened Wrappers
  import opened JavaLong
  import opened Seckill
  import VoucherOrderService

  /** `onMessage`: handles one order and swallows any exception it raises, so the
      listener container never sees a failure. The result carries only the state. */
  function OnMessage(held: set<string>, db: VoucherOrderService.Db, order: VoucherOrder, dbFails: bool)
    : (r: (set<string>, VoucherOrderService.Db))
    ensures r.0 == held
    ensures OrderLockName(order.userId) in held ==> r.1 == db
    ensures OrderLockName(order.userId) !in held && !dbFails ==> r.1.orders == db.orders + [order]
    ensures dbFails ==> r.1 == db
    ensures VoucherOrderService.StockNonNegative(db) ==> VoucherOrderService.StockNonNegative(r.1)
  {
    var (outcome, held', db') := VoucherOrderService.HandlerVoucherOrder(held, db, order, dbFails);
    // a thrown exception is caught and logged here
    (held', db')
  }

  /** Orders of different users never contend: whether another user's lock is held
      makes no difference to how an order is handled. */
  lemma UsersDoNotContend(held: set<string>, db: VoucherOrderService.Db, a: VoucherOrder, otherUser: Long,
                          dbFails: bool)
    requires a.userId != otherUser
    ensures OnMessage(held + {OrderLockName(otherUser)}, db, a, dbFails).1 == OnMessage(held, db, a, dbFails).1
  {
    OrderLockPerUser(a.userId, otherUser);
  }
}

=== FILE: voucher_order_service.dfy ===
/** `VoucherOrderServiceImpl`: the in-process-queue variant of the flash sale. The
    request path admits, allocates an order id and appends the order to a bounded
    queue; a single worker takes orders off the queue and materialises each one
    under a per-user lock. The executor, `queue.take()` blocking and the proxy
    field set by the request path are not modelled: the worker is a loop over the
    orders in queue order. */
module VoucherOrderService {
  import opened Wrappers
  import opened JavaLong
  import opened KvStore
  import opened Seckill
  import RedisIdGenerator

  /** `new ArrayBlockingQueue<>(1024 * 1024)` */
  const QUEUE_CAPACITY: nat := 1024 * 1024

  /** The Redis store (for the id counters) and the pending orders, oldest first. */
  datatype IntakeState<V> = IntakeState(store: Store<V>, queue: seq<VoucherOrder>)

  /** The durable tables: saved orders in insertion order and the stock column of
      `tb_seckill_voucher` by voucher id. */
  datatype Db = Db(orders: seq<VoucherOrder>, stock: map<Long, int>)

  predicate StockNonNegative(db: Db) {
    forall v :: v in db.stock ==> db.stock[v] >= 0
  }

  /** `secKillByVoucherId`: refusals return `fail` with the state untouched; an
      admitted order is appended to the queue and its id returned. `queue.add`
      on a full queue throws `IllegalStateException` after the id was allocated. */
  function SecKillByVoucherId<V>(st: IntakeState<V>, svr: Option<SeckillVoucherRedis>, voucherId: Long,
                                 userId: Long, now: Long, date: string, code: Long): (r: (Outcome<Reply<Long>>, IntakeState<V>))
    ensures Admit(st.store, svr, voucherId, userId, now, date, code).Refused? ==>
              r == (Returned(Fail(Admit(st.store, svr, voucherId, userId, now, date, code).reason)), st)
    ensures Admit(st.store, svr, voucherId, userId, now, date, code).Aborted? ==> r.0.Threw? && r.1 == st
    ensures r.0.Returned? && r.0.value.Ok? ==>
              r.1.queue == st.queue + [VoucherOrder(r.0.value.data, voucherId, userId)]
    ensures !(r.0.Returned? && r.0.value.Ok?) ==> r.1.queue == st.queue
    ensures Admit(st.store, svr, voucherId, userId, now, date, code).Admitted? ==>
              (r.0.Returned? <==> |st.queue| < QUEUE_CAPACITY)
    ensures |st.queue| <= QUEUE_CAPACITY ==> |r.1.queue| <= QUEUE_CAPACITY
    ensures var a := Admit(st.store, svr, voucherId, userId, now, date, code);
            a.Admitted? && |st.queue| < QUEUE_CAPACITY ==>
              r == (Returned(Ok(a.order.id)), IntakeState(a.store, st.queue + [a.order]))
    ensures var a := Admit(st.store, svr, voucherId, userId, now, date, code);
            a.Admitted? && |st.queue| >= QUEUE_CAPACITY ==> r.0.Threw? && r.1 == st.(store := a.store)
  {
    match Admit(st.store, svr, voucherId, userId, now, date, code)
    case Refused(reason) => (Returned(Fail(reason)), st)
    case Aborted(cause) => (Threw(cause), st)
    case Admitted(order, s') =>
      if |st.queue| >= QUEUE_CAPACITY then (Threw("IllegalStateException: Queue full"), st.(store := s'))
      else (Returned(Ok(order.id)), IntakeState(s', st.queue + [order]))
  }

  /** Rows of `tb_voucher_order` with the given user and voucher. */
  function CountOrders(orders: seq<VoucherOrder>, userId: Long, voucherId: Long): nat {
    if orders == [] then 0
    else CountOrders(orders[..|orders| - 1], userId, voucherId)
         + (if orders[|orders| - 1].userId == userId && orders[|orders| - 1].voucherId == voucherId then 1 else 0)
  }

  /** `update ... set stock = stock - 1 where voucher_id = ? and stock > 0`. */
  function DecrementStock(stock: map<Long, int>, voucherId: Long): (r: (map<Long, int>, bool))
    ensures r.1 <==> voucherId in stock && stock[voucherId] > 0
    ensures r.0.Keys == stock.Keys
    ensures forall v :: v in stock ==> r.0[v] == (if v == voucherId && r.1 then stock[v] - 1 else stock[v])
  {
    if voucherId in stock && stock[voucherId] > 0 then (stock[voucherId := stock[voucherId] - 1], true)
    else (stock, false)
  }

  /** `@Transactional createVoucherOrder`: the duplicate count and the failed
      decrement are only logged, and the order is saved in every case. A database
      fault (`dbFails`) throws and rolls the transaction back. */
  function CreateVoucherOrder(db: Db, order: VoucherOrder, dbFails: bool): (r: (Outcome<Unit>, Db))
    ensures dbFails ==> r.0.Threw? && r.1 == db
    ensures !dbFails ==> r.0 == Returned(Unit) && r.1.orders == db.orders + [order]
    ensures r.1.stock.Keys == db.stock.Keys
    ensures !dbFails ==> forall v :: v in db.stock ==>
              r.1.stock[v] == (if v == order.voucherId && db.stock[v] > 0 then db.stock[v] - 1 else db.stock[v])
    ensures StockNonNegative(db) ==> StockNonNegative(r.1)
  {
    var count := CountOrders(db.orders, order.userId, order.voucherId);  // only logged when positive
    var (stock', success) := DecrementStock(db.stock, order.voucherId);  // only logged when false
    if dbFails then (Threw("DataAccessException: transaction rolled back"), db)
    else (Returned(Unit), Db(db.orders + [order], stock'))
  }

  /** `handlerVoucherOrder`: with `held` the per-user locks other parties hold, a
      taken lock means the order is logged and dropped; otherwise the order is
      created once and the lock released in `finally`, whether or not creation threw. */
  function HandlerVoucherOrder(held: set<string>, db: Db, order: VoucherOrder, dbFails: bool): (r: (Outcome<Unit>, set<string>, Db))
    ensures r.1 == held
    ensures OrderLockName(order.userId) in held ==> r.0 == Returned(Unit) && r.2 == db
    ensures OrderLockName(order.userId) !in held ==>
              (r.0, r.2) == CreateVoucherOrder(db, order, dbFails)
  {
    var name := OrderLockName(order.userId);
    if name in held then (Returned(Unit), held, db)
    else
      var locked := held + {name};
      var (outcome, db') := CreateVoucherOrder(db, order, dbFails);
      (outcome, locked - {name}, db')
  }

  /** The stock column only ever goes down from `db`, over the same vouchers, and
      stays non-negative if it started so. */
  predicate StockSettled(db: Db, cur: Db) {
    && cur.stock.Keys == db.stock.Keys
    && (forall v :: v in db.stock ==> cur.stock[v] <= db.stock[v])
    && (StockNonNegative(db) ==> StockNonNegative(cur))
  }

  /** Whether the worker persists the i-th order: its user lock is free and its
      transaction does not fault. */
  predicate PersistsAt(queue: seq<VoucherOrder>, held: set<string>, faults: seq<bool>, i: nat)
    requires |faults| == |queue| && i < |queue|
  {
    OrderLockName(queue[i].userId) !in held && !faults[i]
  }

  /** The orders the worker persists from the first `n` items, in queue order. */
  function Persisted(queue: seq<VoucherOrder>, held: set<string>, faults: seq<bool>, n: nat): (r: seq<VoucherOrder>)
    requires |faults| == |queue| && n <= |queue|
    ensures |r| <= n
  {
    if n == 0 then []
    else Persisted(queue, held, faults, n - 1) + (if PersistsAt(queue, held, faults, n - 1) then [queue[n - 1]] else [])
  }

  /** The body of the worker loop started by `init`, run over the orders taken from
      the queue: every item is handled, an exception of one item is caught and the
      loop goes on with the next. `faults[i]` says whether item i's transaction fails. */
  method Worker(queue: seq<VoucherOrder>, held: set<string>, db: Db, faults: seq<bool>) returns (db': Db)
    requires |faults| == |queue|
    ensures db'.orders == db.orders + Persisted(queue, held, faults, |queue|)
    ensures StockSettled(db, db')
  {
    db' := db;
    NothingPersistedYet(queue, held, faults, db);
    var i := 0;
    while i < |queue|
      invariant 0 <= i <= |queue|
      invariant db'.orders == db.orders + Persisted(queue, held, faults, i)
      invariant StockSettled(db, db')
    {
      db' := HandleItem(queue, held, faults, i, db, db');
      i := i + 1;
    }
  }

  /** Before the first item nothing is persisted and the stock is as it was. */
  lemma NothingPersistedYet(queue: seq<VoucherOrder>, held: set<string>, faults: seq<bool>, db: Db)
    requires |faults| == |queue|
    ensures db.orders == db.orders + Persisted(queue, held, faults, 0)
    ensures StockSettled(db, db)
  {
    assert db.orders + Persisted(queue, held, faults, 0) == db.orders;
  }

  /** One pass of the worker loop: the item goes through handlerVoucherOrder and
      its outcome, an exception included, is caught and logged. */
  method HandleItem(queue: seq<VoucherOrder>, held: set<string>, faults: seq<bool>, i: nat, db: Db, cur: Db)
    returns (next: Db)
    requires |faults| == |queue| && i < |queue|
    requires cur.orders == db.orders + Persisted(queue, held, faults, i)
    requires StockSettled(db, cur)
    ensures next.orders == db.orders + Persisted(queue, held, faults, i + 1)
    ensures StockSettled(db, next)
  {
    var (outcome, held', db') := HandlerVoucherOrder(held, cur, queue[i], faults[i]);
    var saved := if PersistsAt(queue, held, faults, i) then [queue[i]] else [];
    assert db'.orders == cur.orders + saved;
    assert Persisted(queue, held, faults, i + 1) == Persisted(queue, held, faults, i) + saved;
    next := db';
  }

  /** The duplicate check only logs: two orders with different ids but the same
      user and voucher, handled one after the other with the user's lock free, are
      both saved, and the stock is decremented twice while it lasts. */
  lemma DuplicateUserOrderSavedTwice(held: set<string>, db: Db, a: VoucherOrder, b: VoucherOrder)
    requires a.id != b.id && a.userId == b.userId && a.voucherId == b.voucherId
    requires OrderLockName(a.userId) !in held
    requires a.voucherId in db.stock && db.stock[a.voucherId] >= 2
    ensures var (_, _, db1) := HandlerVoucherOrder(held, db, a, false);
            var (_, _, db2) := HandlerVoucherOrder(held, db1, b, false);
            && db2.orders == db.orders + [a, b]
            && CountOrders(db2.orders, a.userId, a.voucherId) == CountOrders(db.orders, a.userId, a.voucherId) + 2
            && db2.stock[a.voucherId] == db.stock[a.voucherId] - 2
  {
    var (_, _, db1) := HandlerVoucherOrder(held, db, a, false);
    var (_, _, db2) := HandlerVoucherOrder(held, db1, b, false);
    assert db2.orders == (db.orders + [a]) + [b];
    assert db2.orders[..|db2.orders| - 1] == db.orders + [a];
    assert (db.orders + [a])[..|db.orders|] == db.orders;
  }
}

=== FILE: wrappers.dfy ===
/** Shared result shapes of the application layer.
    - Option<T>: a Java reference that may be null.
    - Reply<T>: the application's `Result` DTO, either `Result.ok(data)` or `Result.fail(message)`.
    - Outcome<T>: a Java call that either returns normally or throws. */
module Wrappers {

  datatype Option<+T> = None | Some(value: T)

  /** The `Result` value handed back to the HTTP layer. */
  datatype Reply<+T> = Ok(data: T) | Fail(errorMsg: string)

  /** A call that returned `value`, or threw an exception described by `cause`. */
  datatype Outcome<+T> = Returned(value: T) | Threw(cause: string)

  /** The empty payload of `Result.ok()`. */
  datatype Unit = Unit
}
